=== FILE: README.md ===
# Slate editor command layer, modelled in Dafny

This project models the document schema and the command helpers of a Slate-based
rich-text editor demo. The schema is the closed union of element types, their
parent/child typing rules and the seed document. The helpers are the mark toggle,
the block toggle, alignment, link insertion and removal, and image, divider and
table insertion.

Slate owns the tree, the selection and the primitive transforms. The model replaces
them with abstract selections over immutable trees:

- **`Schema`** (`schema.dfy`) holds the datatypes and the predicates that define
  a well-formed tree and a well-formed document.
  - A `Node` is either a text run or an element with a type tag, optional fields and
    children.
  - `WellFormed` states the typing rules:
    - list items sit only under lists, rows only under tables and cells only under
      rows;
    - links, code blocks, images and dividers hold text runs only;
    - a heading has a level in {1, 2, 3}.
  - A document is a sequence of top-level blocks.
- **`Seqs`** (`seqs.dfy`) holds generic facts about cutting and splicing sequences,
  shared by the line model and the inline content.
- **`Seed`** (`seed.dfy`) is the seed document and the proofs that it is well formed.
- **`MarkCommands`** (`marks.dfy`) works on what the editor reports at the selection.
  That is nothing without a selection, the pending marks at a caret, or the text runs
  a span touches.
- **`DocLines`** (`lines.dfy`) reads a document as lines.
  - Each top-level block other than a list is one line.
  - Each item of a top-level list is one line, hosted by that list.
  - A block selection is a range of lines.
  - `Take` and `Drop` split a list at a line boundary. This is how an enclosing
    list is unwrapped around the selected lines only.
- **`BlockCommands`** (`blocks.dfy`) is block activeness and the block toggle over
  lines.
- **`AlignCommands`** (`align.dfy`) is alignment activeness and the alignment setter
  over lines. The setter sets `align` on the lowest alignable elements of each
  selected line, as Slate's default `lowest` mode does.
- **`Url`** (`url.dfy`) is the URL normaliser, with the scheme pattern as a reference
  predicate.
- **`LinkCommands`** (`links.dfy`) covers the link commands on the inline content of
  one block: text runs and links over text runs. A caret sits at the end of a child
  and a span covers whole children. This reads `link` as an inline element, as the
  schema types it. The editor itself never declares it inline (see "Findings").
- **`LinkAsBlock`** (`linkblock.dfy`) inserts a link at a caret at document level in
  two ways: as the editor does, where the link is a block, and inline, as the schema
  intends.
- **`Insertion`** (`insert.dfy`) covers the table, image and divider insertions. They
  insert whole top-level blocks at a block boundary.

Four behaviours of the code follow from the model and are stated as lemmas:

- Toggling `heading` sets the type without a level, so the result breaks the schema.
  `BlockCommands.ToggleHeadingLeavesLevelUnset` shows this.
  `BlockCommands.ToggleBlockPreservesWellFormed` therefore asks for the level to be
  present already.
- Toggling `list-item` when it is not active turns the lines into list items with no
  list around them. `BlockCommands.ToggleListItemLeavesNoList` shows this.
- At a caret, inserting a link and then removing it leaves the URL behind as plain
  text. `LinkCommands.InsertThenRemoveLinkAtCaret` shows this.
- The editor treats `link` as a block, so a link inserted at a caret lands beside the
  block rather than inside it. `LinkAsBlock.CaretLinkLeavesBlock` shows this.

## Model

| member | source | states |
|---|---|---|
| Schema.LinkNeverNests | src/components/editor/types.ts:19-27 | the children of a well-formed link are text runs, so no link occurs inside a link |
| Schema.TextOnlyBlocks | src/components/editor/types.ts:40-76 | a well-formed code block, image or divider holds text runs only and no link |
| Schema.ContainerRules | src/components/editor/types.ts:50-91 | in a well-formed tree a list item's parent is a list, a row's parent is exactly a table and a cell's parent is exactly a row |
| Schema.TopLevelRules | src/components/editor/types.ts:93-106 | a well-formed document has no list item, row, cell or link at the top level, and every top-level block has children |
| Schema.HeadingLevels | src/components/editor/types.ts:34-38 | a well-formed heading has level 1, 2 or 3 |
| Schema.AlignableTypes | src/components/editor/helpers.ts:30-43 | every element type except `link` is alignable |
| Schema.BlockFormats | src/components/editor/types.ts:116-124 | a block format is alignable and is never link, table, row, cell, image or divider |
| Schema.Marks.Put | src/components/editor/types.ts:7-13 | replacing one of the four marks leaves the other three as they were |
| Seed.SeedWellFormed | src/components/editor/types.ts:126-220 | the seed document is a sequence of well-formed top-level blocks |
| Seed.ListWellFormed | src/components/editor/types.ts:147-155 | the seed's bulleted list holds four well-formed list items |
| Seed.TableWellFormed | src/components/editor/types.ts:189-215 | the seed's table holds three rows of two cells each, all well formed |
| Seed.GuideWellFormed | src/components/editor/types.ts:164-176 | the centred paragraph with the documentation link is well formed |
| Seed.TextBlocksWellFormed | src/components/editor/types.ts:126-220 | the seed's headings, paragraphs, quote, code block, image and divider are well-formed top-level blocks |
| Seed.SeedHeadingLevels | src/components/editor/types.ts:127-146 | the seed's headings use levels 1 and 2 only |
| Seed.SeedVoidBlocks | src/components/editor/types.ts:177-188 | the seed's image and divider are centred and carry the single empty text run |
| MarkCommands.IsMarkActive | src/components/editor/helpers.ts:15-18 | a mark is active iff a mark record is reported and it holds the mark as `true`; nothing is active without a selection |
| MarkCommands.ToggleMark | src/components/editor/helpers.ts:20-27 | an active mark is removed, an inactive one set to `true`, at the caret or on every touched run; texts and the other marks are kept |
| MarkCommands.ToggleMarkFlips | src/components/editor/helpers.ts:20-27 | toggling negates the activeness of the toggled mark and keeps that of every other mark |
| MarkCommands.ToggleMarkTwiceActiveness | src/components/editor/helpers.ts:20-27 | toggling a mark twice restores the activeness of every mark |
| MarkCommands.ToggleMarkTwiceRestores | src/components/editor/helpers.ts:20-27 | toggling twice restores the selection if and only if the runs agree on the mark and none stores it as an explicit `false` |
| MarkCommands.ToggleMarkTwiceDropsExplicitFalse | src/components/editor/helpers.ts:20-27 | an explicit `false` does not survive two toggles: the key ends up absent |
| BlockCommands.BlockActiveOnTextBlocks | src/components/editor/helpers.ts:45-57 | on lowest blocks a format is active iff a selected line has that type or sits in a list of that type; nothing is active without a selection |
| BlockCommands.Decide | src/components/editor/helpers.ts:69-84 | the new type is `paragraph` when active, `list-item` for a list format, the format otherwise; a list is wrapped around iff the format is an inactive list type |
| BlockCommands.ToggleBlock | src/components/editor/helpers.ts:59-85 | selected lines are unwrapped from their lists and retyped as decided, hosted by a new list of the format exactly when wrapping; every other line and host is unchanged; no selection changes nothing |
| BlockCommands.ToggleBlockBlocks | src/components/editor/helpers.ts:63-84 | block by block, the blocks before and after the selected lines are kept, a list the selection starts or ends inside being cut there; between them sit new blocks holding exactly the selected lines: one new list of the format when wrapping, never merged with a neighbour, and otherwise one non-list block per line |
| BlockCommands.ToggleBlockActivates | src/components/editor/helpers.ts:59-85 | toggling an inactive format makes it active |
| BlockCommands.ToggleBlockDeactivates | src/components/editor/helpers.ts:59-85 | toggling an active format other than `paragraph` makes it inactive |
| BlockCommands.ToggleBlockTwice | src/components/editor/helpers.ts:59-85 | toggling an inactive format twice leaves root-level paragraphs, so the toggle is not its own inverse |
| BlockCommands.ToggleBlockPreservesWellFormed | src/components/editor/helpers.ts:59-85 | toggling keeps a document well formed when the new type fits the selected lines |
| BlockCommands.ToggleHeadingLeavesLevelUnset | src/components/editor/helpers.ts:76 | toggling `heading` on a paragraph gives a heading without a level, which is not well formed |
| BlockCommands.ToggleListItemLeavesNoList | src/components/editor/helpers.ts:75-84 | toggling `list-item` on a paragraph gives a top-level list item with no list, which is not well formed |
| AlignCommands.AlignLowestSpec | src/components/editor/helpers.ts:111-119 | setting an alignment on a subtree changes only `align` fields, never a link's, and sets it somewhere when something is alignable |
| AlignCommands.AlignTableCells | src/components/editor/helpers.ts:111-119 | in a well-formed table every cell takes the alignment, while the table and its rows keep their own |
| AlignCommands.SetAlignment | src/components/editor/helpers.ts:111-119 | selected lines get the alignment on their lowest alignable elements; hosts and unselected lines are unchanged; the document keeps its blocks one for one, each changed in `align` fields only and never on a link; no selection changes nothing |
| AlignCommands.SetAlignmentActivates | src/components/editor/helpers.ts:93-119 | after setting an alignment on a well-formed document, that alignment is active |
| AlignCommands.SetAlignmentExclusive | src/components/editor/helpers.ts:93-119 | on lowest blocks in lists without another alignment, the set alignment is the only active one |
| AlignCommands.TableKeepsItsAlignment | src/components/editor/helpers.ts:93-119 | on a well-formed left-aligned table, as `createTable` makes it, setting another alignment leaves both that alignment and `left` active |
| AlignCommands.AlignmentActiveOnTextBlocks | src/components/editor/helpers.ts:93-109 | on lowest blocks an alignment is active iff a selected line or the list holding it carries it; nothing is active without a selection |
| AlignCommands.SetAlignmentPreservesWellFormed | src/components/editor/helpers.ts:111-119 | setting an alignment keeps a document well formed |
| Url.ScanScheme | src/components/editor/helpers.ts:165 | the scan succeeds iff a colon follows a run of scheme characters from the start index |
| Url.HasScheme | src/components/editor/helpers.ts:165 | the scheme test agrees with the pattern: a letter, scheme characters, then a colon |
| Url.NormalizeUrl | src/components/editor/helpers.ts:163-169 | the empty URL stays empty, a URL with a scheme is kept, any other gets `https://` in front; a non-empty result always has a scheme |
| Url.NormalizeUrlIdempotent | src/components/editor/helpers.ts:163-169 | normalising twice is normalising once |
| Url.NormalizeBareHost | src/components/editor/helpers.ts:168 | `example.com` becomes `https://example.com` |
| Url.NormalizeKeepsScheme | src/components/editor/helpers.ts:165-166 | `ftp://x` and `mailto:a@b` are kept |
| Url.NormalizeHostWithPort | src/components/editor/helpers.ts:165-166 | `localhost:3000` matches the pattern and is kept without a prefix |
| Url.NormalizeNumericHost | src/components/editor/helpers.ts:165-168 | `1.2.3.4:80` does not start with a letter and gains the prefix |
| LinkCommands.UnwrapLink | src/components/editor/helpers.ts:135-139 | a link under the caret gives way to its children, with the rest of the content kept and the caret at the last of them; a span keeps what lies outside it and holds its flattened text; the text is unchanged, no link stays active and the content stays well formed |
| LinkCommands.WrapLink | src/components/editor/helpers.ts:141-161 | at a caret, the content after removing an active link gets a link whose only child is the URL, right after the caret, and the caret moves onto it; a span is replaced by one link over its unwrapped text and collapses onto it; no selection changes nothing |
| LinkCommands.WrapLinkReplacesLink | src/components/editor/helpers.ts:141-145 | wrapping a span that holds a link leaves one link over text runs only |
| LinkCommands.InsertLink | src/components/editor/helpers.ts:180-184 | an empty URL changes nothing; otherwise the selection is wrapped in a link to the normalised URL |
| LinkCommands.InsertLinkActivates | src/components/editor/helpers.ts:180-184 | after inserting, a link to the normalised URL is active and no link lies inside another |
| LinkCommands.LinkActiveIffUnwrapChanges | src/components/editor/helpers.ts:171-178 | a link is active exactly when unwrapping at the selection changes something: never without a selection, at a caret when the child there is a link, on a span when some covered child is one |
| LinkCommands.RemoveLink | src/components/editor/helpers.ts:186-190 | with no link active nothing changes, otherwise the links at the selection are unwrapped; afterwards no link is active and the text is the same |
| LinkCommands.RemoveLinkIdempotent | src/components/editor/helpers.ts:186-190 | removing twice is removing once |
| LinkCommands.InsertThenRemoveLink | src/components/editor/helpers.ts:180-190 | linking a span without links and then removing the link restores the content |
| LinkCommands.InsertThenRemoveLinkAtCaret | src/components/editor/helpers.ts:149-156 | at a caret, the round trip leaves the URL as a plain text run after the caret |
| LinkAsBlock.InsertLinkBlockAtCaret | src/components/editor/SlateEditor.tsx:20 | with `link` a block and the caret after a text run of a top-level lowest block (not a list or table), that block is cut after the caret and the link becomes a top-level block after its first half, so the document is never well formed |
| LinkAsBlock.CaretLinkLeavesBlock | src/components/editor/helpers.ts:155-156 | a caret at the end of the one-paragraph document `a` gives the paragraph followed by a top-level link, which breaks the schema |
| LinkAsBlock.InsertLinkInline | src/components/editor/types.ts:25-32 | with `link` inline, the link goes into a paragraph, heading or blockquote right after the caret, every other block is kept and the document stays well formed |
| LinkAsBlock.TextOnlyBlockRejectsInlineLink | src/components/editor/helpers.ts:180-184 | even with `link` inline, a caret in a code block, image or divider of a well-formed document, which the command does not refuse, puts the link among text-only children and the document is no longer well formed |
| Insertion.Round | src/components/editor/helpers.ts:208 | the rounded value lies within a half of the input, halves going up |
| Insertion.RoundUnique | src/components/editor/helpers.ts:208 | only one integer lies within a half of the input |
| Insertion.Clamp | src/components/editor/helpers.ts:205 | the result lies in the range when the range is non-empty, equals the value when it is in range, and is the nearer bound otherwise |
| Insertion.ClampNearest | src/components/editor/helpers.ts:205 | no in-range value is nearer to the input than the clamped one |
| Insertion.CreateTable | src/components/editor/helpers.ts:207-224 | a left-aligned table of the clamped rounded row count, each row of the clamped rounded column count, every cell one empty text run; it is well formed |
| Insertion.CreateTableInRange | src/components/editor/helpers.ts:207-224 | in-range dimensions are kept |
| Insertion.CreateTableExamples | src/components/editor/helpers.ts:207-224 | 11 by 0 gives 10 by 1, 2.7 by 7 gives 3 by 6, 0.4 by 2.5 gives 1 by 3 |
| Insertion.InsertTable | src/components/editor/helpers.ts:226-229 | the table is inserted at the boundary, every other block is kept in order, and well-formedness is kept |
| Insertion.InsertBlocksRemovable | src/components/editor/helpers.ts:226-229 | taking the inserted blocks out again gives back the document |
| Insertion.InsertImage | src/components/editor/helpers.ts:121-133 | an empty URL inserts nothing; otherwise one image with the URL, alternative text and caption and one empty text run; well-formedness is kept |
| Insertion.InsertDivider | src/components/editor/helpers.ts:192-203 | a centred divider with one empty text run, then a paragraph with one empty text run; well-formedness is kept |

## Left out

- The Slate engine is not modelled: path and range arithmetic, `Editor.nodes`, `unhangRange`, node splitting, normalisation, pending marks and history. Selections are abstract, as described above.
- Partial text runs are not modelled. A caret sits at the end of a child and a span covers whole children, so splitting a run at the selection edge is left out.
- Insertions happen at a top-level block boundary. Splitting the block the caret is in is left out.
- `Math.round` is modelled on finite reals. NaN and the infinities are left out: the toolbar rejects a non-numeric size before `insertTable` is called.
- The toolbar, the editor component, rendering, the page, the header and the export script are left out. They are UI and I/O.
- The toolbar imports `insertVideo`, `setFontSize`, `setHeadingLevel`, `getCurrentFontSize` and `getCurrentHeadingLevel`. These functions are not part of this model: `helpers.ts` does not define them.
- BlockCommands.ToggleBlock: requires every selected line to be a lowest block, so a selected table, which is one line, is not modelled.
- BlockCommands.ToggleBlock: assumes `link` is inline, which the editor never declares. With `link` a block, the engine's lowest-block retyping reaches a link inside a paragraph rather than the paragraph.
- BlockCommands.ToggleBlockPreservesWellFormed: requires that the new type fits. A heading needs a level already, a code block needs text-only children, and an inactive `list-item` is excluded. The code gives no such guarantee (see `ToggleHeadingLeavesLevelUnset`).
- AlignCommands.SetAlignmentExclusive: is stated only for lowest blocks whose hosting list carries no other alignment. The setter never touches a list's own alignment, so such an alignment stays active. Tables are excluded for the same reason: the setter aligns only the cells, so the `left` a table gets from `createTable` stays active (`AlignCommands.TableKeepsItsAlignment`).
- LinkAsBlock.InsertLinkInline: covers paragraphs, headings and blockquotes only. Code blocks, images and dividers are left out because even an inline link breaks their text-only rule (`LinkAsBlock.TextOnlyBlockRejectsInlineLink`).
- LinkAsBlock.InsertLinkBlockAtCaret: covers a caret in a top-level lowest block only. In a list item or table cell the engine puts the link inside the list or row, and a caret on a link is first unwrapped.
- LinkCommands.UnwrapLink: an empty link is not modelled. A well-formed link has at least one child.
- LinkCommands.UnwrapLink: assumes `link` is inline, which the editor never declares. With `link` a block, the link's children are unwrapped as blocks.
- LinkCommands.WrapLink: assumes `link` is inline, which the editor never declares. As the editor runs, a caret insertion splits the block and places the link beside it (`LinkAsBlock.InsertLinkBlockAtCaret`). Wrapping a span splits blocks at its edges and wraps whole blocks.
- LinkCommands.WrapLinkReplacesLink: holds for inline links only. As the editor runs, the wrapping link would hold blocks.
- LinkCommands.InsertThenRemoveLink: the exact round trip holds for inline links only. As the editor runs, the blocks stay split at the span edges.
- LinkCommands.InsertThenRemoveLinkAtCaret: the URL run left inside the block assumes inline links. As the editor runs, the link is a block of its own beside the split block.
- AlignCommands.SetAlignment: a table is one line, so a selection meeting a table stands for the whole table and aligns every cell. The editor aligns only the cells the selection meets. `IsAlignmentActive` likewise looks at every cell of a selected table.
- Insertion.InsertTable: the table goes in at a top-level boundary only. With a caret in a list item or table cell, the engine splits that block and puts the table inside the list or row, which breaks the schema. On an expanded selection it also deletes the selection first.
- Insertion.InsertImage: the image goes in at a top-level boundary only. With a caret in a list item or table cell, the engine puts it inside the list or row, which breaks the schema. On an expanded selection it also deletes the selection first.
- Insertion.InsertDivider: the divider and paragraph go in at a top-level boundary only. With a caret in a list item or table cell, the engine puts them inside the list or row, which breaks the schema. On an expanded selection it also deletes the selection first.
- The hotkey wiring of the editor component is not modelled.

## Findings

| source | as written | input that shows it | evidently intended | confidence | as-written member | corrected member |
|---|---|---|---|---|---|---|
| src/components/editor/SlateEditor.tsx:20 | the editor is built without declaring `link` inline, so the engine treats a link as a block; `insertLink` at a caret splits the block and puts the link at the top level | the document `[paragraph [a]]`, caret at the end of `a`, URL `https://x.com`: the result is the paragraph followed by a top-level link | `link` is inline rich text inside its block, as the schema types it (types.ts:25-27) | high for the typing; the placement follows the engine's block insertion; not executed | LinkAsBlock.InsertLinkBlockAtCaret (with LinkAsBlock.CaretLinkLeavesBlock) | LinkAsBlock.InsertLinkInline |

=== FILE: align.dfy ===
/** The alignment commands: whether an alignment is active on the selected lines, and
    setting one. The setter sets `align` on the lowest alignable elements of the
    selection only: on list items and not on the list holding them, on table cells and
    not on their rows or table, never on a link. */
module AlignCommands {
  import opened Schema
  import opened DocLines

  /** True iff some element of the subtree rooted at `n` can be aligned. */
  predicate HasAlignable(n: Node)
    decreases n
  {
    n.Element? && (IsAlignable(n.kind) || exists c | c in n.children :: HasAlignable(c))
  }

  /** True iff some alignable element of the subtree rooted at `n` has alignment `a`. */
  predicate HasAlign(n: Node, a: Alignment)
    decreases n
  {
    n.Element? && ((IsAlignable(n.kind) && n.props.align == Some(a)) || exists c | c in n.children :: HasAlign(c, a))
  }

  /** `m` is `n` with at most the `align` fields of its elements changed, and never
      the one of a link. */
  predicate SameExceptAlign(n: Node, m: Node)
    decreases n
  {
    match n
    case Text(_) => m == n
    case Element(k, p, cs) =>
      && m.Element? && m.kind == k && m.props.(align := p.align) == p
      && |m.children| == |cs|
      && (k == Link ==> m.props == p)
      && forall j | 0 <= j < |cs| :: SameExceptAlign(cs[j], m.children[j])
  }

  /** Sets alignment `a` on the lowest alignable elements of the subtree: an element
      gets it when nothing below it can be aligned. */
  function AlignLowest(n: Node, a: Alignment): Node
    decreases n
  {
    match n
    case Text(_) => n
    case Element(k, p, cs) =>
      if exists c | c in cs :: HasAlignable(c) then
        Element(k, p, seq(|cs|, j requires 0 <= j < |cs| => AlignLowest(cs[j], a)))
      else if IsAlignable(k) then
        Element(k, p.(align := Some(a)), cs)
      else
        n
  }

  /** Aligning the lowest elements changes nothing but `align` fields, never the one
      of a link, and leaves `a` set somewhere whenever something could be aligned. */
  lemma {:induction false} AlignLowestSpec(n: Node, a: Alignment)
    ensures SameExceptAlign(n, AlignLowest(n, a))
    ensures HasAlignable(n) ==> HasAlign(AlignLowest(n, a), a)
    decreases n
  {
    match n
    case Text(_) =>
    case Element(k, p, cs) =>
      var r := AlignLowest(n, a);
      if exists c | c in cs :: HasAlignable(c) {
        forall j | 0 <= j < |cs| ensures SameExceptAlign(cs[j], r.children[j]) {
          AlignLowestSpec(cs[j], a);
        }
        var c :| c in cs && HasAlignable(c);
        var j :| 0 <= j < |cs| && cs[j] == c;
        AlignLowestSpec(c, a);
        assert r.children[j] in r.children;
      } else {
        SameExceptAlignRefl(n);
      }
  }

  /** Aligns the items `lo <= j < hi` of a list block, or the block itself when it
      is not a list and `lo <= 0 < hi`. */
  function AlignBlock(n: Node, lo: int, hi: int, a: Alignment): Node {
    if IsListNode(n) then
      n.(children := seq(|n.children|, j requires 0 <= j < |n.children| =>
        if lo <= j < hi then AlignLowest(n.children[j], a) else n.children[j]))
    else if lo <= 0 < hi then AlignLowest(n, a)
    else n
  }

  /** Aligns the lines `lo <= i < hi` of the document, counted from its first block. */
  function AlignLines(doc: seq<Node>, lo: int, hi: int, a: Alignment): seq<Node>
    decreases |doc|
  {
    if doc == [] then []
    else [AlignBlock(doc[0], lo, hi, a)] + AlignLines(doc[1..], lo - |LinesOf(doc[0])|, hi - |LinesOf(doc[0])|, a)
  }

  /** A line with its node aligned when `selected`, its host kept. */
  function AlignLineIf(l: Line, selected: bool, a: Alignment): Line {
    if selected then Line(AlignLowest(l.node, a), l.host) else l
  }

  lemma {:induction false} AlignLinesLines(doc: seq<Node>, lo: int, hi: int, a: Alignment)
    ensures |Lines(AlignLines(doc, lo, hi, a))| == |Lines(doc)|
    ensures forall i | 0 <= i < |Lines(doc)| ::
      Lines(AlignLines(doc, lo, hi, a))[i] == AlignLineIf(Lines(doc)[i], lo <= i < hi, a)
    decreases |doc|
  {
    if doc != [] {
      var w := |LinesOf(doc[0])|;
      var b := AlignBlock(doc[0], lo, hi, a);
      var rest := AlignLines(doc[1..], lo - w, hi - w, a);
      AlignLinesCons(doc, lo, hi, a);
      AlignLinesLines(doc[1..], lo - w, hi - w, a);
      LinesAppend([b], rest);
      LinesSingle(b);
      AlignBlockLines(doc[0], lo, hi, a);
      assert Lines(doc) == LinesOf(doc[0]) + Lines(doc[1..]);
      AlignConcat(LinesOf(doc[0]), Lines(doc[1..]), LinesOf(b), Lines(rest), lo, hi, a);
    }
  }

  /** Two aligned pieces of lines make the aligned whole, the second piece counting
      its selection from where the first one ends. */
  lemma AlignConcat(x1: seq<Line>, x2: seq<Line>, y1: seq<Line>, y2: seq<Line>, lo: int, hi: int, a: Alignment)
    requires |y1| == |x1| && |y2| == |x2|
    requires forall i | 0 <= i < |x1| :: y1[i] == AlignLineIf(x1[i], lo <= i < hi, a)
    requires forall i | 0 <= i < |x2| :: y2[i] == AlignLineIf(x2[i], lo - |x1| <= i < hi - |x1|, a)
    ensures |y1 + y2| == |x1 + x2|
    ensures forall i | 0 <= i < |x1 + x2| :: (y1 + y2)[i] == AlignLineIf((x1 + x2)[i], lo <= i < hi, a)
  {
    forall i | 0 <= i < |x1 + x2| ensures (y1 + y2)[i] == AlignLineIf((x1 + x2)[i], lo <= i < hi, a) {
      if i >= |x1| {
        assert y2[i - |x1|] == AlignLineIf(x2[i - |x1|], lo - |x1| <= i - |x1| < hi - |x1|, a);
      }
    }
  }

  lemma AlignBlockLines(n: Node, lo: int, hi: int, a: Alignment)
    ensures |LinesOf(AlignBlock(n, lo, hi, a))| == |LinesOf(n)|
    ensures forall i | 0 <= i < |LinesOf(n)| ::
      LinesOf(AlignBlock(n, lo, hi, a))[i] == AlignLineIf(LinesOf(n)[i], lo <= i < hi, a)
  {
  }

  /** An alignment is active when some alignable element meeting the selection has
      it: one inside a selected line, or the list holding a selected line. */
  predicate IsAlignmentActive(doc: seq<Node>, sel: BlockSel, a: Alignment)
    requires ValidSel(doc, sel)
  {
    match sel
    case NoSelection => false
    case Selected(lo, hi) => exists i | lo <= i < hi :: LineHasAlign(Lines(doc)[i], a)
  }

  predicate LineHasAlign(l: Line, a: Alignment) {
    (l.host.InList? && IsAlignable(l.host.kind) && l.host.props.align == Some(a)) || HasAlign(l.node, a)
  }

  /** Setting alignment `a` on the selected lines: each selected line has `a` set
      on its lowest alignable elements; the lists holding the lines and every line
      outside the selection stay as they were. Without a selection nothing changes. */
  function SetAlignment(doc: seq<Node>, sel: BlockSel, a: Alignment): (r: seq<Node>)
    requires ValidSel(doc, sel)
    ensures |Lines(r)| == |Lines(doc)|
    ensures sel.NoSelection? ==> r == doc
    ensures forall i | 0 <= i < |Lines(doc)| && !InSel(sel, i) :: Lines(r)[i] == Lines(doc)[i]
    ensures forall i | InSel(sel, i) ::
      Lines(r)[i] == Line(AlignLowest(Lines(doc)[i].node, a), Lines(doc)[i].host)
    ensures |r| == |doc| && forall k | 0 <= k < |doc| :: SameExceptAlign(doc[k], r[k])
  {
    match sel
    case NoSelection =>
      forall k | 0 <= k < |doc| ensures SameExceptAlign(doc[k], doc[k]) {
        SameExceptAlignRefl(doc[k]);
      }
      doc
    case Selected(lo, hi) =>
      AlignLinesLines(doc, lo, hi, a);
      AlignLinesSame(doc, lo, hi, a);
      AlignLines(doc, lo, hi, a)
  }

  /** After setting `a` on a well-formed document, `a` is active. */
  lemma SetAlignmentActivates(doc: seq<Node>, sel: BlockSel, a: Alignment)
    requires ValidSel(doc, sel) && sel.Selected? && WellFormedDoc(doc)
    ensures IsAlignmentActive(SetAlignment(doc, sel, a), sel, a)
  {
    LinesWellFormed(doc, sel.lo);
    var n := Lines(doc)[sel.lo].node;
    assert HasAlignable(n);
    AlignLowestSpec(n, a);
    assert LineHasAlign(Lines(SetAlignment(doc, sel, a))[sel.lo], a);
  }

  /** A table keeps its own alignment while its cells take the new one, so on a
      table as `createTable` makes it, left-aligned, setting another alignment leaves
      two alignments active. */
  lemma TableKeepsItsAlignment(t: Node, a: Alignment)
    requires WellFormed(t) && IsElementOf(t, Table) && t.props.align == Some(Left) && a != Left
    ensures ValidSel([t], Selected(0, 1))
    ensures IsAlignmentActive(SetAlignment([t], Selected(0, 1), a), Selected(0, 1), a)
    ensures IsAlignmentActive(SetAlignment([t], Selected(0, 1), a), Selected(0, 1), Left)
  {
    var sel := Selected(0, 1);
    LinesSingle(t);
    assert WellFormedDoc([t]);
    SetAlignmentActivates([t], sel, a);
    TableAlignKept(t, a);
  }

  lemma TableAlignKept(t: Node, a: Alignment)
    requires WellFormed(t) && IsElementOf(t, Table) && t.props.align == Some(Left)
    ensures HasAlign(AlignLowest(t, a), Left)
  {
    AlignTableCells(t, a);
  }

  /** On lowest blocks whose lists carry no other alignment, setting `a` leaves
      exactly one alignment active: `a`. */
  lemma SetAlignmentExclusive(doc: seq<Node>, sel: BlockSel, a: Alignment, b: Alignment)
    requires ValidSel(doc, sel) && sel.Selected? && WellFormedDoc(doc) && SelectsTextBlocks(doc, sel)
    requires forall i | sel.lo <= i < sel.hi :: Lines(doc)[i].host.InList? ==>
      Lines(doc)[i].host.props.align in {None, Some(a)}
    ensures IsAlignmentActive(SetAlignment(doc, sel, a), sel, b) <==> b == a
  {
    var r := SetAlignment(doc, sel, a);
    SetAlignmentActivates(doc, sel, a);
    if b != a {
      forall i | sel.lo <= i < sel.hi ensures !LineHasAlign(Lines(r)[i], b) {
        var n := Lines(doc)[i].node;
        assert TextBlock(n);
        LinesWellFormed(doc, i);
        assert IsAlignable(n.kind);
        AlignTextBlock(n, a, b);
      }
    }
  }

  /** On lowest blocks, an alignment is active exactly when a selected line carries
      it itself or sits in a list carrying it. */
  lemma AlignmentActiveOnTextBlocks(doc: seq<Node>, sel: BlockSel, a: Alignment)
    requires ValidSel(doc, sel) && WellFormedDoc(doc) && SelectsTextBlocks(doc, sel)
    ensures IsAlignmentActive(doc, sel, a) <==>
      sel.Selected? && exists i | sel.lo <= i < sel.hi ::
        || Lines(doc)[i].node.props.align == Some(a)
        || (Lines(doc)[i].host.InList? && Lines(doc)[i].host.props.align == Some(a))
  {
    if sel.Selected? {
      forall i | sel.lo <= i < sel.hi ensures LineHasAlign(Lines(doc)[i], a) <==>
        || Lines(doc)[i].node.props.align == Some(a)
        || (Lines(doc)[i].host.InList? && Lines(doc)[i].host.props.align == Some(a))
      {
        LinesWellFormed(doc, i);
        TextBlockAlign(Lines(doc)[i].node, a);
      }
    }
  }

  /** A lowest block carries an alignment only on itself. */
  lemma TextBlockAlign(n: Node, a: Alignment)
    requires TextBlock(n)
    ensures HasAlign(n, a) <==> IsAlignable(n.kind) && n.props.align == Some(a)
  {
    forall c | c in n.children ensures !HasAlign(c, a) {
      if c.Element? {
        assert forall e | e in c.children :: e.Text?;
      }
    }
  }

  /** `n` with its own `align` set to `a`. */
  function WithAlign(n: Node, a: Alignment): Node
    requires n.Element?
  {
    n.(props := n.props.(align := Some(a)))
  }

  /** In a well-formed table the lowest alignable elements are the cells: every cell
      takes the alignment, while the table and its rows keep theirs. */
  lemma AlignTableCells(t: Node, a: Alignment)
    requires WellFormed(t) && IsElementOf(t, Table)
    ensures var r := AlignLowest(t, a);
      && r.Element? && r.kind == Table && r.props == t.props && |r.children| == |t.children|
      && forall i | 0 <= i < |t.children| ::
           && t.children[i].Element? && r.children[i].Element?
           && r.children[i] == t.children[i].(children := r.children[i].children)
           && |r.children[i].children| == |t.children[i].children|
           && forall j | 0 <= j < |t.children[i].children| ::
                t.children[i].children[j].Element? &&
                r.children[i].children[j] == WithAlign(t.children[i].children[j], a)
  {
    var rows := t.children;
    assert rows[0] in rows;
    forall i | 0 <= i < |rows|
      ensures rows[i].Element? && AlignLowest(rows[i], a).Element?
      ensures AlignLowest(rows[i], a) == rows[i].(children := AlignLowest(rows[i], a).children)
      ensures |AlignLowest(rows[i], a).children| == |rows[i].children|
      ensures forall j | 0 <= j < |rows[i].children| ::
        rows[i].children[j].Element? && AlignLowest(rows[i], a).children[j] == WithAlign(rows[i].children[j], a)
    {
      assert rows[i] in rows;
      AlignRowCells(rows[i], a);
    }
  }

  lemma AlignRowCells(row: Node, a: Alignment)
    requires WellFormed(row) && IsElementOf(row, TableRow)
    ensures AlignLowest(row, a).Element?
    ensures AlignLowest(row, a) == row.(children := AlignLowest(row, a).children)
    ensures |AlignLowest(row, a).children| == |row.children|
    ensures forall j | 0 <= j < |row.children| ::
      row.children[j].Element? && AlignLowest(row, a).children[j] == WithAlign(row.children[j], a)
  {
    var cells := row.children;
    assert cells[0] in cells;
    forall j | 0 <= j < |cells| ensures cells[j].Element? && AlignLowest(cells[j], a) == WithAlign(cells[j], a) {
      assert cells[j] in cells;
      AlignCell(cells[j], a);
    }
  }

  /** A well-formed cell holds no alignable element, so it takes the alignment itself. */
  lemma AlignCell(c: Node, a: Alignment)
    requires WellFormed(c) && IsElementOf(c, TableCell)
    ensures AlignLowest(c, a) == WithAlign(c, a)
  {
    forall d | d in c.children ensures !HasAlignable(d) {
      if d.Element? {
        assert forall e | e in d.children :: e.Text?;
      }
    }
  }

  /** A lowest alignable block takes the alignment itself, and nothing inside it
      carries one. */
  lemma AlignTextBlock(n: Node, a: Alignment, b: Alignment)
    requires TextBlock(n) && IsAlignable(n.kind) && b != a
    ensures AlignLowest(n, a) == n.(props := n.props.(align := Some(a)))
    ensures !HasAlign(AlignLowest(n, a), b)
  {
    forall c | c in n.children ensures !HasAlignable(c) && !HasAlign(c, b) {
      if c.Element? {
        assert forall e | e in c.children :: e.Text?;
      }
    }
  }

  lemma {:induction false} SameExceptAlignWellFormed(n: Node, m: Node)
    requires WellFormed(n) && SameExceptAlign(n, m)
    ensures WellFormed(m)
    decreases n
  {
    if n.Element? {
      forall c | c in m.children ensures AllowedChild(m.kind, c) && WellFormed(c) {
        var j :| 0 <= j < |m.children| && m.children[j] == c;
        assert n.children[j] in n.children;
        SameExceptAlignWellFormed(n.children[j], c);
      }
    }
  }

  lemma AlignBlockSame(n: Node, lo: int, hi: int, a: Alignment)
    ensures SameExceptAlign(n, AlignBlock(n, lo, hi, a))
  {
    if IsListNode(n) {
      var m := AlignBlock(n, lo, hi, a);
      forall j | 0 <= j < |n.children| ensures SameExceptAlign(n.children[j], m.children[j]) {
        if lo <= j < hi {
          AlignLowestSpec(n.children[j], a);
        } else {
          SameExceptAlignRefl(n.children[j]);
        }
      }
    } else if lo <= 0 < hi {
      AlignLowestSpec(n, a);
    } else {
      SameExceptAlignRefl(n);
    }
  }

  lemma {:induction false} SameExceptAlignRefl(n: Node)
    ensures SameExceptAlign(n, n)
    decreases n
  {
    if n.Element? {
      forall j | 0 <= j < |n.children| ensures SameExceptAlign(n.children[j], n.children[j]) {
        SameExceptAlignRefl(n.children[j]);
      }
    }
  }

  /** Setting an alignment keeps a well-formed document well formed: only `align`
      fields change, and never on a link. */
  lemma SetAlignmentPreservesWellFormed(doc: seq<Node>, sel: BlockSel, a: Alignment)
    requires ValidSel(doc, sel) && WellFormedDoc(doc)
    ensures WellFormedDoc(SetAlignment(doc, sel, a))
  {
    if sel.Selected? {
      var r := AlignLines(doc, sel.lo, sel.hi, a);
      AlignLinesSame(doc, sel.lo, sel.hi, a);
      forall n | n in r ensures n.Element? && IsTopLevel(n.kind) && WellFormed(n) {
        var k :| 0 <= k < |r| && r[k] == n;
        assert doc[k] in doc;
        SameExceptAlignWellFormed(doc[k], n);
      }
    }
  }

  lemma AlignLinesCons(doc: seq<Node>, lo: int, hi: int, a: Alignment)
    requires doc != []
    ensures AlignLines(doc, lo, hi, a) ==
      [AlignBlock(doc[0], lo, hi, a)] + AlignLines(doc[1..], lo - |LinesOf(doc[0])|, hi - |LinesOf(doc[0])|, a)
  {
  }

  /** Block by block, aligning lines changes nothing but `align` fields. */
  lemma {:induction false} AlignLinesSame(doc: seq<Node>, lo: int, hi: int, a: Alignment)
    ensures |AlignLines(doc, lo, hi, a)| == |doc|
    ensures forall k | 0 <= k < |doc| :: SameExceptAlign(doc[k], AlignLines(doc, lo, hi, a)[k])
    decreases |doc|
  {
    if doc != [] {
      var w := |LinesOf(doc[0])|;
      var rest := AlignLines(doc[1..], lo - w, hi - w, a);
      AlignLinesSame(doc[1..], lo - w, hi - w, a);
      AlignLinesCons(doc, lo, hi, a);
      AlignBlockSame(doc[0], lo, hi, a);
      forall k | 1 <= k < |doc| ensures SameExceptAlign(doc[k], AlignLines(doc, lo, hi, a)[k]) {
        assert doc[k] == doc[1..][k - 1];
        assert AlignLines(doc, lo, hi, a)[k] == rest[k - 1];
      }
    }
  }
}

=== FILE: blocks.dfy ===
/** The block commands: whether a block format is active on the selected lines, and
    toggling a block format. */
module BlockCommands {
  import opened Schema
  import opened Seqs
  import opened DocLines

  /** True iff some node of the subtree rooted at `n` is an element of type `f`. */
  predicate HasKind(n: Node, f: Kind)
    decreases n
  {
    n.Element? && (n.kind == f || exists c | c in n.children :: HasKind(c, f))
  }

  /** The nodes a selected line brings into the selection are the line's subtree and
      the list holding it. */
  predicate LineHas(l: Line, f: Kind) {
    (l.host.InList? && l.host.kind == f) || HasKind(l.node, f)
  }

  /** A block format is active when some element of that type meets the selection;
      without a selection nothing is active. */
  predicate IsBlockActive(doc: seq<Node>, sel: BlockSel, f: Kind)
    requires ValidSel(doc, sel)
  {
    match sel
    case NoSelection => false
    case Selected(lo, hi) => exists i | lo <= i < hi :: LineHas(Lines(doc)[i], f)
  }

  /** What a toggle does to the selected lines: the type they get, and whether they
      are then wrapped in a new list. */
  datatype Decision = Decision(newType: Kind, wrap: bool)

  function Decide(isActive: bool, f: Kind): (d: Decision)
    requires IsBlockFormat(f)
    ensures IsBlockFormat(d.newType) && !IsList(d.newType)
    ensures d.wrap <==> !isActive && IsList(f)
    ensures d.wrap ==> d.newType == ListItem
    ensures isActive ==> d.newType == Paragraph
    ensures !isActive && !IsList(f) ==> d.newType == f
  {
    if isActive then Decision(Paragraph, false)
    else if IsList(f) then Decision(ListItem, true)
    else Decision(f, false)
  }

  /** Setting the type tag of an element; every other field stays as it was. */
  function Retype(n: Node, t: Kind): Node {
    if n.Element? then n.(kind := t) else n
  }

  /** Toggling block format `f` over the selected lines. Every enclosing list is first
      unwrapped around the selected lines. The lines then become paragraphs when `f`
      was active, list items when `f` is a list type, and blocks of type `f`
      otherwise; on the way into a list they are wrapped in one new list of type `f`.
      Lines outside the selection, and the lists holding them, are unchanged. */
  function ToggleBlock(doc: seq<Node>, sel: BlockSel, f: Kind): (r: seq<Node>)
    requires IsBlockFormat(f)
    requires ValidSel(doc, sel) && SelectsTextBlocks(doc, sel)
    ensures |Lines(r)| == |Lines(doc)|
    ensures sel.NoSelection? ==> r == doc
    ensures forall i | 0 <= i < |Lines(doc)| && !InSel(sel, i) :: Lines(r)[i] == Lines(doc)[i]
    ensures forall i | InSel(sel, i) ::
      Lines(r)[i].node == Retype(Lines(doc)[i].node,
        if IsBlockActive(doc, sel, f) then Paragraph else if IsList(f) then ListItem else f)
    ensures forall i | InSel(sel, i) ::
      Lines(r)[i].host == (if !IsBlockActive(doc, sel, f) && IsList(f) then InList(f, NoProps) else Root)
  {
    match sel
    case NoSelection => doc
    case Selected(lo, hi) =>
      var d := Decide(IsBlockActive(doc, sel, f), f);
      ToggleLinesSpec(doc, lo, hi, f, d);
      ToggleLines(doc, lo, hi, f, d)
  }

  /** The selected lines `lo <= i < hi` retyped as decided, wrapped in a new list of
      type `f` when decided so, between the blocks before and after them. */
  function ToggleLines(doc: seq<Node>, lo: nat, hi: nat, f: Kind, d: Decision): seq<Node>
    requires lo <= hi <= |Lines(doc)|
  {
    Take(doc, lo) + Middle(doc, lo, hi, f, d) + Drop(doc, hi)
  }

  function Middle(doc: seq<Node>, lo: nat, hi: nat, f: Kind, d: Decision): seq<Node>
    requires lo <= hi <= |Lines(doc)|
  {
    var retyped := Retyped(doc, lo, hi, d.newType);
    if d.wrap then [Element(f, NoProps, retyped)] else retyped
  }

  lemma ToggleLinesSpec(doc: seq<Node>, lo: nat, hi: nat, f: Kind, d: Decision)
    requires lo < hi <= |Lines(doc)| && !IsList(d.newType) && (d.wrap ==> IsList(f))
    ensures var r := ToggleLines(doc, lo, hi, f, d);
      && |Lines(r)| == |Lines(doc)|
      && (forall i | 0 <= i < |Lines(doc)| && !(lo <= i < hi) :: Lines(r)[i] == Lines(doc)[i])
      && (forall i | lo <= i < hi :: Lines(r)[i] ==
            Line(Retype(Lines(doc)[i].node, d.newType), if d.wrap then InList(f, NoProps) else Root))
  {
    var middle := Middle(doc, lo, hi, f, d);
    MiddleLines(doc, lo, hi, f, d);
    SpliceLines(doc, lo, hi, middle);
    SpliceIndex(Lines(doc), Lines(middle), lo, hi);
  }

  /** Toggling keeps, block for block, what lies before and after the selected lines
      (a list the selection starts or ends inside is cut there, not merged), and puts
      between them new blocks holding exactly the selected lines: on the way into a
      list one new list of type `f`, otherwise one block per line and no list. */
  lemma ToggleBlockBlocks(doc: seq<Node>, sel: BlockSel, f: Kind)
    requires IsBlockFormat(f)
    requires ValidSel(doc, sel) && SelectsTextBlocks(doc, sel) && sel.Selected?
    ensures var r, t, u := ToggleBlock(doc, sel, f), Take(doc, sel.lo), Drop(doc, sel.hi);
      && |t| + |u| <= |r| && r[..|t|] == t && r[|r| - |u|..] == u
      && |Lines(r)| == |Lines(doc)|
      && Lines(r[|t|..|r| - |u|]) == Lines(r)[sel.lo..sel.hi]
      && (!IsBlockActive(doc, sel, f) && IsList(f) ==>
            |r| == |t| + 1 + |u| && r[|t|].Element? && r[|t|].kind == f && r[|t|].props == NoProps)
      && (!(!IsBlockActive(doc, sel, f) && IsList(f)) ==>
            |r| == |t| + (sel.hi - sel.lo) + |u| && forall j | |t| <= j < |r| - |u| :: !IsListNode(r[j]))
  {
    var d := Decide(IsBlockActive(doc, sel, f), f);
    ToggleLinesBlocks(doc, sel.lo, sel.hi, f, d);
  }

  /** Block by block: the blocks before line `lo` and from line `hi` on are kept, and
      between them sit the new blocks holding exactly the selected lines, either one
      new list of type `f` or one block per line and no list. */
  lemma ToggleLinesBlocks(doc: seq<Node>, lo: nat, hi: nat, f: Kind, d: Decision)
    requires lo < hi <= |Lines(doc)| && !IsList(d.newType) && (d.wrap ==> IsList(f))
    ensures var r, t, u := ToggleLines(doc, lo, hi, f, d), Take(doc, lo), Drop(doc, hi);
      && |t| + |u| <= |r| && r[..|t|] == t && r[|r| - |u|..] == u
      && |Lines(r)| == |Lines(doc)|
      && Lines(r[|t|..|r| - |u|]) == Lines(r)[lo..hi]
      && (d.wrap ==> |r| == |t| + 1 + |u| && r[|t|] == Element(f, NoProps, Retyped(doc, lo, hi, d.newType)))
      && (!d.wrap ==> |r| == |t| + (hi - lo) + |u| && forall j | |t| <= j < |r| - |u| :: !IsListNode(r[j]))
  {
    var m := Middle(doc, lo, hi, f, d);
    MiddleLines(doc, lo, hi, f, d);
    SplicedBlocks(doc, lo, hi, m);
    if !d.wrap {
      FlatMiddle(doc, lo, hi, d.newType, Take(doc, lo), Drop(doc, hi));
    }
  }

  /** The new blocks that are no list stay no list between the kept blocks. */
  lemma FlatMiddle(doc: seq<Node>, lo: nat, hi: nat, k: Kind, t: seq<Node>, u: seq<Node>)
    requires lo <= hi <= |Lines(doc)| && !IsList(k)
    ensures var r := t + Retyped(doc, lo, hi, k) + u;
      forall j | |t| <= j < |r| - |u| :: !IsListNode(r[j])
  {
    var m := Retyped(doc, lo, hi, k);
    var r := t + m + u;
    forall j | |t| <= j < |r| - |u| ensures !IsListNode(r[j]) {
      assert r[j] == m[j - |t|] == Retype(Lines(doc)[lo + j - |t|].node, k);
    }
  }

  /** Splicing new blocks that hold as many lines as the range they replace keeps
      the blocks around them and puts the new lines exactly at that range. */
  lemma SplicedBlocks(doc: seq<Node>, lo: nat, hi: nat, m: seq<Node>)
    requires lo <= hi <= |Lines(doc)| && |Lines(m)| == hi - lo
    ensures var t, u := Take(doc, lo), Drop(doc, hi);
      var r := t + m + u;
      && |r| == |t| + |m| + |u|
      && r[..|t|] == t && r[|r| - |u|..] == u && r[|t|..|r| - |u|] == m
      && |Lines(r)| == |Lines(doc)| && Lines(r)[lo..hi] == Lines(m)
  {
    SpliceLines(doc, lo, hi, m);
    var a, b := Lines(doc)[..lo], Lines(doc)[hi..];
    assert (a + Lines(m) + b)[lo..hi] == Lines(m);
  }


  /** The selected lines, retyped. */
  function Retyped(doc: seq<Node>, lo: nat, hi: nat, t: Kind): (rs: seq<Node>)
    requires lo <= hi <= |Lines(doc)|
    ensures |rs| == hi - lo
  {
    seq(hi - lo, j requires 0 <= j < hi - lo => Retype(Lines(doc)[lo + j].node, t))
  }

  lemma MiddleLines(doc: seq<Node>, lo: nat, hi: nat, f: Kind, d: Decision)
    requires lo <= hi <= |Lines(doc)| && !IsList(d.newType) && (d.wrap ==> IsList(f))
    ensures |Lines(Middle(doc, lo, hi, f, d))| == hi - lo
    ensures forall j | 0 <= j < hi - lo ::
      Lines(Middle(doc, lo, hi, f, d))[j] == Line(Retype(Lines(doc)[lo + j].node, d.newType),
                                                  if d.wrap then InList(f, NoProps) else Root)
  {
    var retyped := Retyped(doc, lo, hi, d.newType);
    if d.wrap {
      LinesSingle(Element(f, NoProps, retyped));
    } else {
      FlatRetyped(doc, lo, hi, d.newType);
    }
  }

  lemma FlatRetyped(doc: seq<Node>, lo: nat, hi: nat, t: Kind)
    requires lo <= hi <= |Lines(doc)| && !IsList(t)
    ensures |Lines(Retyped(doc, lo, hi, t))| == hi - lo
    ensures forall j | 0 <= j < hi - lo ::
      Lines(Retyped(doc, lo, hi, t))[j] == Line(Retype(Lines(doc)[lo + j].node, t), Root)
  {
    var retyped := Retyped(doc, lo, hi, t);
    forall j | 0 <= j < |retyped| ensures !IsListNode(retyped[j]) {
      assert retyped[j] == Retype(Lines(doc)[lo + j].node, t);
    }
    FlatLines(retyped);
  }

  /** A lowest block holds no element of a block type other than its own. */
  lemma TextBlockHasOnlyItsKind(n: Node, f: Kind)
    requires TextBlock(n) && f != Link
    ensures HasKind(n, f) <==> n.kind == f
  {
    forall c | c in n.children ensures !HasKind(c, f) {
      if c.Element? {
        assert forall e | e in c.children :: !HasKind(e, f);
      }
    }
  }

  /** On lowest blocks, a format other than `link` is active exactly when a selected
      line has that type or sits in a list of that type. */
  lemma BlockActiveOnTextBlocks(doc: seq<Node>, sel: BlockSel, f: Kind)
    requires ValidSel(doc, sel) && SelectsTextBlocks(doc, sel) && f != Link
    ensures IsBlockActive(doc, sel, f) <==>
      sel.Selected? && exists i | sel.lo <= i < sel.hi ::
        Lines(doc)[i].node.kind == f || (Lines(doc)[i].host.InList? && Lines(doc)[i].host.kind == f)
  {
    if sel.Selected? {
      if IsBlockActive(doc, sel, f) {
        var i :| sel.lo <= i < sel.hi && LineHas(Lines(doc)[i], f);
        OnTextBlockLine(doc, sel, f, i);
      }
      if exists i | sel.lo <= i < sel.hi ::
          Lines(doc)[i].node.kind == f || (Lines(doc)[i].host.InList? && Lines(doc)[i].host.kind == f) {
        var i :| sel.lo <= i < sel.hi &&
          (Lines(doc)[i].node.kind == f || (Lines(doc)[i].host.InList? && Lines(doc)[i].host.kind == f));
        OnTextBlockLine(doc, sel, f, i);
      }
    }
  }

  lemma OnTextBlockLine(doc: seq<Node>, sel: BlockSel, f: Kind, i: int)
    requires ValidSel(doc, sel) && SelectsTextBlocks(doc, sel) && f != Link
    requires sel.Selected? && sel.lo <= i < sel.hi
    ensures LineHas(Lines(doc)[i], f) <==>
      Lines(doc)[i].node.kind == f || (Lines(doc)[i].host.InList? && Lines(doc)[i].host.kind == f)
  {
    TextBlockHasOnlyItsKind(Lines(doc)[i].node, f);
  }

  /** Toggling a format that is not active makes it active. */
  lemma ToggleBlockActivates(doc: seq<Node>, sel: BlockSel, f: Kind)
    requires IsBlockFormat(f) && ValidSel(doc, sel) && SelectsTextBlocks(doc, sel)
    requires sel.Selected? && !IsBlockActive(doc, sel, f)
    ensures IsBlockActive(ToggleBlock(doc, sel, f), sel, f)
  {
    var r := ToggleBlock(doc, sel, f);
    assert LineHas(Lines(r)[sel.lo], f);
  }

  /** Toggling an active format other than `paragraph` makes it inactive: the lines
      become root-level paragraphs. */
  lemma ToggleBlockDeactivates(doc: seq<Node>, sel: BlockSel, f: Kind)
    requires IsBlockFormat(f) && ValidSel(doc, sel) && SelectsTextBlocks(doc, sel)
    requires sel.Selected? && IsBlockActive(doc, sel, f) && f != Paragraph
    ensures !IsBlockActive(ToggleBlock(doc, sel, f), sel, f)
  {
    var r := ToggleBlock(doc, sel, f);
    forall i | sel.lo <= i < sel.hi ensures !LineHas(Lines(r)[i], f) {
      assert TextBlock(Lines(doc)[i].node);
      TextBlockHasOnlyItsKind(Lines(r)[i].node, f);
    }
  }

  /** Toggling an inactive format twice leaves every selected line a root-level
      paragraph: the toggle is not its own inverse. */
  lemma ToggleBlockTwice(doc: seq<Node>, sel: BlockSel, f: Kind)
    requires IsBlockFormat(f) && ValidSel(doc, sel) && SelectsTextBlocks(doc, sel)
    requires sel.Selected? && !IsBlockActive(doc, sel, f)
    ensures ValidSel(ToggleBlock(doc, sel, f), sel)
    ensures SelectsTextBlocks(ToggleBlock(doc, sel, f), sel)
    ensures forall i | sel.lo <= i < sel.hi ::
      Lines(ToggleBlock(ToggleBlock(doc, sel, f), sel, f))[i] == Line(Retype(Lines(doc)[i].node, Paragraph), Root)
  {
    var once := ToggleBlock(doc, sel, f);
    forall i | sel.lo <= i < sel.hi ensures TextBlock(Lines(once)[i].node) {
      assert TextBlock(Lines(doc)[i].node);
    }
    ToggleBlockActivates(doc, sel, f);
  }

  /** Toggling keeps a well-formed document well formed, except where the new type
      needs what the lines lack: a heading needs a level, a code block text-only
      children, and a list item a list around it. */
  lemma ToggleBlockPreservesWellFormed(doc: seq<Node>, sel: BlockSel, f: Kind)
    requires IsBlockFormat(f) && ValidSel(doc, sel) && SelectsTextBlocks(doc, sel)
    requires WellFormedDoc(doc) && sel.Selected?
    requires !IsBlockActive(doc, sel, f) ==>
      f != ListItem && forall i | sel.lo <= i < sel.hi :: RetypeFits(Lines(doc)[i].node, f)
    ensures WellFormedDoc(ToggleBlock(doc, sel, f))
  {
    var lo, hi := sel.lo, sel.hi;
    var d := Decide(IsBlockActive(doc, sel, f), f);
    forall i | lo <= i < hi ensures RetypeFits(Lines(doc)[i].node, d.newType) && WellFormed(Lines(doc)[i].node) {
      assert TextBlock(Lines(doc)[i].node);
      LinesWellFormed(doc, i);
    }
    RetypedWellFormed(doc, lo, hi, d.newType);
    MiddleWellFormed(doc, lo, hi, f, d);
    ToggleLinesWellFormed(doc, lo, hi, f, d);
  }

  /** Retyped lowest blocks are well formed when the new type fits their fields and
      children. */
  lemma RetypedWellFormed(doc: seq<Node>, lo: nat, hi: nat, t: Kind)
    requires lo <= hi <= |Lines(doc)|
    requires t in {Paragraph, Heading, CodeBlock, Blockquote, ListItem}
    requires forall i | lo <= i < hi :: RetypeFits(Lines(doc)[i].node, t) && WellFormed(Lines(doc)[i].node)
    ensures var rs := Retyped(doc, lo, hi, t);
      forall j | 0 <= j < hi - lo :: IsElementOf(rs[j], t) && WellFormed(rs[j])
  {
    var retyped := Retyped(doc, lo, hi, t);
    forall j | 0 <= j < |retyped|
      ensures retyped[j].Element? && retyped[j].kind == t && WellFormed(retyped[j])
    {
      var n := Lines(doc)[lo + j].node;
      assert lo <= lo + j < hi;
      assert retyped[j] == Retype(n, t);
      RetypeWellFormed(n, t);
    }
  }

  /** A lowest block can take type `t`: a heading needs a level, a code block
      text-only children. */
  predicate RetypeFits(n: Node, t: Kind) {
    && TextBlock(n)
    && (t == Heading ==> FieldsFit(Heading, n.props))
    && (t == CodeBlock ==> forall c | c in n.children :: c.Text?)
  }

  lemma RetypeWellFormed(n: Node, t: Kind)
    requires RetypeFits(n, t) && WellFormed(n) && t in {Paragraph, Heading, CodeBlock, Blockquote, ListItem}
    ensures Retype(n, t).Element? && Retype(n, t).kind == t && WellFormed(Retype(n, t))
  {
    forall c | c in n.children ensures AllowedChild(t, c) && WellFormed(c) {
    }
  }

  /** The new middle blocks are well-formed top-level blocks: a list of list items,
      or retyped blocks of a top-level type. */
  lemma MiddleWellFormed(doc: seq<Node>, lo: nat, hi: nat, f: Kind, d: Decision)
    requires lo < hi <= |Lines(doc)|
    requires d.wrap ==> IsList(f) && d.newType == ListItem
    requires !d.wrap ==> IsTopLevel(d.newType)
    requires var rs := Retyped(doc, lo, hi, d.newType);
      forall j | 0 <= j < hi - lo :: IsElementOf(rs[j], d.newType) && WellFormed(rs[j])
    ensures WellFormedDoc(Middle(doc, lo, hi, f, d))
  {
    var retyped := Retyped(doc, lo, hi, d.newType);
    if d.wrap {
      var l := Element(f, NoProps, retyped);
      assert WellFormed(l) by {
        assert retyped[0] in retyped;
        forall c | c in retyped ensures AllowedChild(f, c) && WellFormed(c) {
          var j :| 0 <= j < |retyped| && retyped[j] == c;
        }
      }
      assert Middle(doc, lo, hi, f, d) == [l];
    } else {
      forall n | n in retyped ensures n.Element? && IsTopLevel(n.kind) && WellFormed(n) {
        var j :| 0 <= j < |retyped| && retyped[j] == n;
      }
    }
  }

  lemma ToggleLinesWellFormed(doc: seq<Node>, lo: nat, hi: nat, f: Kind, d: Decision)
    requires lo <= hi <= |Lines(doc)| && WellFormedDoc(doc)
    requires WellFormedDoc(Middle(doc, lo, hi, f, d))
    ensures WellFormedDoc(ToggleLines(doc, lo, hi, f, d))
  {
    var middle := Middle(doc, lo, hi, f, d);
    TakeDropWellFormed(doc, lo);
    TakeDropWellFormed(doc, hi);
    WellFormedDocAppend(Take(doc, lo), middle);
    WellFormedDocAppend(Take(doc, lo) + middle, Drop(doc, hi));
  }

  /** Turning a paragraph into a heading leaves the heading without a level, which
      the schema requires: one line `{paragraph, [{text: ''}]}` already shows it. */
  lemma ToggleHeadingLeavesLevelUnset()
    ensures var doc := [Element(Paragraph, NoProps, [EmptyText])];
      && ValidSel(doc, Selected(0, 1)) && SelectsTextBlocks(doc, Selected(0, 1))
      && ToggleBlock(doc, Selected(0, 1), Heading) == [Element(Heading, NoProps, [EmptyText])]
      && !WellFormedDoc(ToggleBlock(doc, Selected(0, 1), Heading))
  {
    var p := Element(Paragraph, NoProps, [EmptyText]);
    var doc := [p];
    assert Lines(doc) == [Line(p, Root)];
    assert !HasKind(p, Heading) by {
      TextBlockHasOnlyItsKind(p, Heading);
    }
    assert !IsBlockActive(doc, Selected(0, 1), Heading);
    assert Take(doc, 0) == [];
    assert Drop(doc, 1) == [];
    var h := Element(Heading, NoProps, [EmptyText]);
    assert h in ToggleBlock(doc, Selected(0, 1), Heading);
  }

  /** Toggling `list-item` on a paragraph gives a list item with no list around it,
      which the schema does not admit at the top level. */
  lemma ToggleListItemLeavesNoList()
    ensures var doc := [Element(Paragraph, NoProps, [EmptyText])];
      && ValidSel(doc, Selected(0, 1)) && SelectsTextBlocks(doc, Selected(0, 1))
      && ToggleBlock(doc, Selected(0, 1), ListItem) == [Element(ListItem, NoProps, [EmptyText])]
      && !WellFormedDoc(ToggleBlock(doc, Selected(0, 1), ListItem))
  {
    var p := Element(Paragraph, NoProps, [EmptyText]);
    var doc := [p];
    assert Lines(doc) == [Line(p, Root)];
    assert !HasKind(p, ListItem) by {
      TextBlockHasOnlyItsKind(p, ListItem);
    }
    assert !IsBlockActive(doc, Selected(0, 1), ListItem);
    assert Take(doc, 0) == [];
    assert Drop(doc, 1) == [];
    var li := Element(ListItem, NoProps, [EmptyText]);
    assert li in ToggleBlock(doc, Selected(0, 1), ListItem);
  }
}

=== FILE: insert.dfy ===
/** The insertion commands: a table of clamped size, an image, a divider followed by an
    empty paragraph. Each inserts whole top-level blocks at the block boundary `at`
    where the selection sits. */
module Insertion {
  import opened Schema

  /** Rounding to the nearest integer, halves upwards, as `Math.round` does on finite
      values. */
  function Round(x: real): (r: int)
    ensures r as real - 0.5 <= x < r as real + 0.5
  {
    (x + 0.5).Floor
  }

  /** Only one integer lies within a half of `x`, so `Round` is the nearest one. */
  lemma RoundUnique(x: real, k: int)
    requires k as real - 0.5 <= x < k as real + 0.5
    ensures Round(x) == k
  {
  }

  /** `v` forced into `[lo, hi]`: the upper bound first, then the lower one. */
  function Clamp(v: int, lo: int, hi: int): (r: int)
    ensures lo <= hi ==> lo <= r <= hi
    ensures lo <= v <= hi ==> r == v
    ensures v < lo ==> r == lo
    ensures lo <= hi < v ==> r == hi
  {
    if lo > (if hi < v then hi else v) then lo else if hi < v then hi else v
  }

  /** The clamped result is the in-range value nearest to `v`. */
  lemma ClampNearest(v: int, lo: int, hi: int, w: int)
    requires lo <= w <= hi
    ensures Dist(Clamp(v, lo, hi), v) <= Dist(w, v)
  {
  }

  function Dist(a: int, b: int): nat {
    if a < b then b - a else a - b
  }

  const MaxRows := 10
  const MaxCols := 6

  const EmptyCell := Element(TableCell, NoProps, [EmptyText])

  /** A table of `rows` rows of `cols` empty cells each, after rounding both and
      clamping them to 1..10 rows and 1..6 columns; the table is left-aligned. */
  function CreateTable(rows: real, cols: real): (t: Node)
    ensures t.Element? && t.kind == Table && t.props == NoProps.(align := Some(Left))
    ensures |t.children| == Clamp(Round(rows), 1, MaxRows)
    ensures 1 <= |t.children| <= MaxRows
    ensures forall i | 0 <= i < |t.children| ::
      && IsElementOf(t.children[i], TableRow)
      && t.children[i].props == NoProps
      && |t.children[i].children| == Clamp(Round(cols), 1, MaxCols)
      && forall j | 0 <= j < |t.children[i].children| :: t.children[i].children[j] == EmptyCell
    ensures WellFormed(t)
  {
    var r := Clamp(Round(rows), 1, MaxRows);
    var c := Clamp(Round(cols), 1, MaxCols);
    var row := Element(TableRow, NoProps, seq(c, _ => EmptyCell));
    assert WellFormed(row) by {
      assert row.children[0] in row.children;
    }
    var t := Element(Table, NoProps.(align := Some(Left)), seq(r, _ => row));
    assert t.children[0] in t.children;
    t
  }

  /** The number of rows and the number of cells of each row of a table. */
  predicate HasShape(t: Node, rows: nat, cols: nat) {
    && t.Element? && |t.children| == rows
    && forall i | 0 <= i < rows :: t.children[i].Element? && |t.children[i].children| == cols
  }

  /** Dimensions already in range are taken as given. */
  lemma CreateTableInRange(rows: int, cols: int)
    requires 1 <= rows <= MaxRows && 1 <= cols <= MaxCols
    ensures HasShape(CreateTable(rows as real, cols as real), rows, cols)
  {
  }

  /** Out-of-range and fractional dimensions: 11 by 0 gives 10 by 1, 2.7 by 7 gives
      3 by 6, 0.4 by 2.5 gives 1 by 3. */
  lemma CreateTableExamples()
    ensures HasShape(CreateTable(11.0, 0.0), 10, 1)
    ensures HasShape(CreateTable(2.7, 7.0), 3, 6)
    ensures HasShape(CreateTable(0.4, 2.5), 1, 3)
  {
    RoundUnique(2.7, 3);
    RoundUnique(2.5, 3);
    RoundUnique(0.4, 0);
  }

  /** `ns` inserted into `doc` before block `at`; every other block keeps its place
      relative to its neighbours. */
  function InsertBlocks(doc: seq<Node>, at: nat, ns: seq<Node>): (r: seq<Node>)
    requires at <= |doc|
    ensures |r| == |doc| + |ns|
    ensures r[..at] == doc[..at]
    ensures r[at..at + |ns|] == ns
    ensures r[at + |ns|..] == doc[at..]
  {
    doc[..at] + ns + doc[at..]
  }

  /** Taking the inserted blocks out again gives back the document. */
  lemma InsertBlocksRemovable(doc: seq<Node>, at: nat, ns: seq<Node>)
    requires at <= |doc|
    ensures var r := InsertBlocks(doc, at, ns); r[..at] + r[at + |ns|..] == doc
  {
    var r := InsertBlocks(doc, at, ns);
    assert doc == doc[..at] + doc[at..];
  }

  /** Inserting well-formed top-level blocks keeps a document well formed. */
  lemma InsertBlocksWellFormed(doc: seq<Node>, at: nat, ns: seq<Node>)
    requires at <= |doc| && WellFormedDoc(doc) && WellFormedDoc(ns)
    ensures WellFormedDoc(InsertBlocks(doc, at, ns))
  {
    var r := InsertBlocks(doc, at, ns);
    forall n | n in r ensures n.Element? && IsTopLevel(n.kind) && WellFormed(n) {
      assert n in doc[..at] || n in ns || n in doc[at..];
      assert n in doc[..at] ==> n in doc;
      assert n in doc[at..] ==> n in doc;
    }
  }

  /** Inserting a table built from the requested dimensions. */
  function InsertTable(doc: seq<Node>, at: nat, rows: real, cols: real): (r: seq<Node>)
    requires at <= |doc|
    ensures |r| == |doc| + 1
    ensures r[at] == CreateTable(rows, cols)
    ensures r[..at] == doc[..at] && r[at + 1..] == doc[at..]
    ensures WellFormedDoc(doc) ==> WellFormedDoc(r)
  {
    var t := CreateTable(rows, cols);
    var r := InsertBlocks(doc, at, [t]);
    assert r[at] == r[at..at + 1][0];
    if WellFormedDoc(doc) then
      InsertBlocksWellFormed(doc, at, [t]);
      r
    else r
  }

  /** The image element the image command inserts. */
  function ImageNode(url: string, alt: Option<string>, caption: Option<string>): Node {
    Element(Image, NoProps.(url := Some(url), alt := alt, caption := caption), [EmptyText])
  }

  /** Inserting an image: an empty URL inserts nothing; otherwise one image holding
      the URL, alternative text and caption and a single empty text run. */
  function InsertImage(doc: seq<Node>, at: nat, url: string, alt: Option<string>, caption: Option<string>): (r: seq<Node>)
    requires at <= |doc|
    ensures url == "" ==> r == doc
    ensures url != "" ==> && |r| == |doc| + 1
                          && r[..at] == doc[..at] && r[at + 1..] == doc[at..]
                          && IsElementOf(r[at], Image) && r[at].children == [EmptyText]
                          && r[at].props.url == Some(url) && r[at].props.alt == alt
                          && r[at].props.caption == caption && r[at].props.align == None
    ensures WellFormedDoc(doc) ==> WellFormedDoc(r)
  {
    if url == "" then doc
    else
      var img := ImageNode(url, alt, caption);
      var r := InsertBlocks(doc, at, [img]);
      assert r[at] == r[at..at + 1][0];
      if WellFormedDoc(doc) then
        assert img.children[0] in img.children;
        InsertBlocksWellFormed(doc, at, [img]);
        r
      else r
  }

  /** Inserting a divider: a centred divider holding one empty text run, directly
      followed by an empty paragraph. */
  function InsertDivider(doc: seq<Node>, at: nat): (r: seq<Node>)
    requires at <= |doc|
    ensures |r| == |doc| + 2
    ensures r[..at] == doc[..at] && r[at + 2..] == doc[at..]
    ensures IsElementOf(r[at], Divider) && r[at].props.align == Some(Center) && r[at].children == [EmptyText]
    ensures IsElementOf(r[at + 1], Paragraph) && r[at + 1].props == NoProps && r[at + 1].children == [EmptyText]
    ensures WellFormedDoc(doc) ==> WellFormedDoc(r)
  {
    var divider := Element(Divider, NoProps.(align := Some(Center)), [EmptyText]);
    var para := Element(Paragraph, NoProps, [EmptyText]);
    var r := InsertBlocks(doc, at, [divider, para]);
    assert r[at] == r[at..at + 2][0];
    assert r[at + 1] == r[at..at + 2][1];
    if WellFormedDoc(doc) then
      assert divider.children[0] in divider.children;
      assert para.children[0] in para.children;
      InsertBlocksWellFormed(doc, at, [divider, para]);
      r
    else r
  }
}

=== FILE: lines.dfy ===
/** The abstract selection the block commands work on.

    A document is read as a sequence of lines: every top-level block that is not a
    list is one line, and every child of a top-level list is one line whose host is
    that list. A block selection is a contiguous range of lines; a collapsed caret
    selects the one line it sits in. `Take` and `Drop` cut a document before and after
    a given line, splitting a list the cut falls inside, which is how an enclosing list
    is unwrapped around the selected lines only. */
module DocLines {
  import opened Schema
  import opened Seqs

  datatype Host = Root | InList(kind: Kind, props: Props)

  datatype Line = Line(node: Node, host: Host)

  datatype BlockSel = NoSelection | Selected(lo: nat, hi: nat)

  function LinesOf(n: Node): seq<Line> {
    if IsListNode(n) then
      seq(|n.children|, j requires 0 <= j < |n.children| => Line(n.children[j], InList(n.kind, n.props)))
    else
      [Line(n, Root)]
  }

  function Lines(doc: seq<Node>): seq<Line>
    decreases |doc|
  {
    if doc == [] then [] else LinesOf(doc[0]) + Lines(doc[1..])
  }

  /** A selection of lines that exist in the document. */
  predicate ValidSel(doc: seq<Node>, sel: BlockSel) {
    sel.Selected? ==> sel.lo < sel.hi <= |Lines(doc)|
  }

  predicate InSel(sel: BlockSel, i: int) {
    sel.Selected? && sel.lo <= i < sel.hi
  }

  /** A lowest block: an element that is not a list and whose children are inline
      content, text runs and links over text runs. */
  predicate TextBlock(n: Node) {
    && n.Element?
    && !IsList(n.kind)
    && forall c | c in n.children ::
         c.Text? || (IsElementOf(c, Link) && forall d | d in c.children :: d.Text?)
  }

  /** Every selected line is a lowest block. */
  predicate SelectsTextBlocks(doc: seq<Node>, sel: BlockSel)
    requires ValidSel(doc, sel)
  {
    sel.Selected? ==> forall i | sel.lo <= i < sel.hi :: TextBlock(Lines(doc)[i].node)
  }

  /** The blocks holding the first `k` lines; a list holding line `k` keeps its
      earlier items only. */
  function Take(doc: seq<Node>, k: nat): seq<Node>
    decreases |doc|
  {
    if doc == [] || k == 0 then []
    else if IsListNode(doc[0]) && k < |doc[0].children| then
      [doc[0].(children := doc[0].children[..k])]
    else
      [doc[0]] + Take(doc[1..], k - |LinesOf(doc[0])|)
  }

  /** The blocks holding the lines from `k` on; a list holding line `k - 1` keeps its
      later items only. */
  function Drop(doc: seq<Node>, k: nat): seq<Node>
    decreases |doc|
  {
    if doc == [] || k == 0 then doc
    else if IsListNode(doc[0]) && k < |doc[0].children| then
      [doc[0].(children := doc[0].children[k..])] + doc[1..]
    else
      Drop(doc[1..], k - |LinesOf(doc[0])|)
  }

  lemma LinesSingle(n: Node)
    ensures Lines([n]) == LinesOf(n)
  {
    assert [n][1..] == [];
  }

  lemma {:induction false} LinesAppend(a: seq<Node>, b: seq<Node>)
    ensures Lines(a + b) == Lines(a) + Lines(b)
    decreases |a|
  {
    if a == [] {
      assert a + b == b;
    } else {
      assert (a + b)[0] == a[0];
      assert (a + b)[1..] == a[1..] + b;
      LinesAppend(a[1..], b);
    }
  }

  lemma LinesCons(doc: seq<Node>)
    requires doc != []
    ensures Lines(doc) == LinesOf(doc[0]) + Lines(doc[1..])
  {
  }

  /** Cutting a list's items cuts its lines the same way. */
  lemma LinesOfCut(n: Node, k: nat)
    requires IsListNode(n) && k <= |n.children|
    ensures LinesOf(n.(children := n.children[..k])) == LinesOf(n)[..k]
    ensures LinesOf(n.(children := n.children[k..])) == LinesOf(n)[k..]
  {
  }

  /** `Take` holds exactly the first `k` lines, hosts included. */
  lemma {:induction false} TakeLines(doc: seq<Node>, k: nat)
    requires k <= |Lines(doc)|
    ensures Lines(Take(doc, k)) == Lines(doc)[..k]
    decreases |doc|
  {
    if doc == [] || k == 0 {
    } else {
      LinesCons(doc);
      if IsListNode(doc[0]) && k < |doc[0].children| {
        var n := doc[0].(children := doc[0].children[..k]);
        LinesSingle(n);
        LinesOfCut(doc[0], k);
        PrefixOfConcat(LinesOf(doc[0]), Lines(doc[1..]), k);
      } else {
        var w := |LinesOf(doc[0])|;
        TakeLines(doc[1..], k - w);
        LinesAppend([doc[0]], Take(doc[1..], k - w));
        LinesSingle(doc[0]);
        PrefixOfConcat(LinesOf(doc[0]), Lines(doc[1..]), k);
      }
    }
  }

  /** `Drop` holds exactly the lines from `k` on, hosts included. */
  lemma {:induction false} DropLines(doc: seq<Node>, k: nat)
    requires k <= |Lines(doc)|
    ensures Lines(Drop(doc, k)) == Lines(doc)[k..]
    decreases |doc|
  {
    if doc == [] || k == 0 {
    } else {
      LinesCons(doc);
      if IsListNode(doc[0]) && k < |doc[0].children| {
        var n := doc[0].(children := doc[0].children[k..]);
        LinesAppend([n], doc[1..]);
        LinesSingle(n);
        LinesOfCut(doc[0], k);
        SuffixOfConcat(LinesOf(doc[0]), Lines(doc[1..]), k);
      } else {
        var w := |LinesOf(doc[0])|;
        DropLines(doc[1..], k - w);
        SuffixOfConcat(LinesOf(doc[0]), Lines(doc[1..]), k);
      }
    }
  }



  /** The lines of a document made of the blocks before line `lo`, some new blocks,
      and the blocks after line `hi`. */
  lemma SpliceLines(doc: seq<Node>, lo: nat, hi: nat, middle: seq<Node>)
    requires lo <= hi <= |Lines(doc)|
    ensures Lines(Take(doc, lo) + middle + Drop(doc, hi)) == Lines(doc)[..lo] + Lines(middle) + Lines(doc)[hi..]
  {
    TakeLines(doc, lo);
    DropLines(doc, hi);
    LinesAppend(Take(doc, lo) + middle, Drop(doc, hi));
    LinesAppend(Take(doc, lo), middle);
  }

  /** A sequence of blocks none of which is a list has one root line per block. */
  lemma {:induction false} FlatLines(s: seq<Node>)
    requires forall j | 0 <= j < |s| :: !IsListNode(s[j])
    ensures |Lines(s)| == |s|
    ensures forall j | 0 <= j < |s| :: Lines(s)[j] == Line(s[j], Root)
    decreases |s|
  {
    if s != [] {
      FlatLines(s[1..]);
    }
  }

  lemma WellFormedDocAppend(a: seq<Node>, b: seq<Node>)
    ensures WellFormedDoc(a + b) <==> WellFormedDoc(a) && WellFormedDoc(b)
  {
    if WellFormedDoc(a) && WellFormedDoc(b) {
      forall n | n in a + b ensures n.Element? && IsTopLevel(n.kind) && WellFormed(n) {
        assert n in a || n in b;
      }
    }
  }

  /** A document is well formed exactly when its first block and the rest are. */
  lemma WellFormedDocCons(doc: seq<Node>)
    requires doc != []
    ensures WellFormedDoc(doc) <==> WellFormedDoc([doc[0]]) && WellFormedDoc(doc[1..])
  {
    assert doc == [doc[0]] + doc[1..];
    WellFormedDocAppend([doc[0]], doc[1..]);
  }

  /** Every line of a well-formed document is a well-formed node: a root line is a
      top-level block other than a list, a hosted line is a list item. */
  lemma {:induction false} LinesWellFormed(doc: seq<Node>, i: int)
    requires WellFormedDoc(doc) && 0 <= i < |Lines(doc)|
    ensures WellFormed(Lines(doc)[i].node)
    ensures Lines(doc)[i].host.Root? ==> Lines(doc)[i].node.Element? && IsTopLevel(Lines(doc)[i].node.kind) && !IsList(Lines(doc)[i].node.kind)
    ensures Lines(doc)[i].host.InList? ==> IsElementOf(Lines(doc)[i].node, ListItem) && IsList(Lines(doc)[i].host.kind)
    decreases |doc|
  {
    assert doc[0] in doc;
    var w := |LinesOf(doc[0])|;
    if i >= w {
      assert WellFormedDoc(doc[1..]) by {
        forall n | n in doc[1..] ensures n in doc { }
      }
      LinesWellFormed(doc[1..], i - w);
    } else if IsListNode(doc[0]) {
      assert doc[0].children[i] in doc[0].children;
    }
  }

  /** Cutting a well-formed document keeps it well formed: a split list keeps at
      least one item on each side. */
  lemma {:induction false} TakeDropWellFormed(doc: seq<Node>, k: nat)
    requires WellFormedDoc(doc)
    ensures WellFormedDoc(Take(doc, k))
    ensures WellFormedDoc(Drop(doc, k))
    decreases |doc|
  {
    if doc != [] && k != 0 {
      WellFormedDocCons(doc);
      if IsListNode(doc[0]) && k < |doc[0].children| {
        ListCutWellFormed(doc[0], k);
        WellFormedDocAppend([doc[0].(children := doc[0].children[k..])], doc[1..]);
      } else {
        TakeDropWellFormed(doc[1..], k - |LinesOf(doc[0])|);
        WellFormedDocAppend([doc[0]], Take(doc[1..], k - |LinesOf(doc[0])|));
      }
    }
  }

  /** Both halves of a well-formed list cut inside it are well-formed lists. */
  lemma ListCutWellFormed(n: Node, k: nat)
    requires WellFormedDoc([n]) && IsListNode(n) && 0 < k < |n.children|
    ensures WellFormedDoc([n.(children := n.children[..k])])
    ensures WellFormedDoc([n.(children := n.children[k..])])
  {
    assert n in [n];
    var cs := n.children;
    assert forall c | c in cs[..k] :: c in cs;
    assert forall c | c in cs[k..] :: c in cs;
    assert WellFormed(n.(children := cs[..k]));
    assert WellFormed(n.(children := cs[k..]));
  }
}

=== FILE: linkblock.dfy ===
/** Inserting a link at a caret, at document level, in two readings.

    The editor never declares `link` an inline element, so the engine treats a link
    like any other element: as a block. Inserting one at a caret then splits the
    block holding the caret and places the link beside it, at the top level, where
    the schema does not admit a link. The schema, which types a link as inline rich
    text, asks for the link inside the block instead; `LinkCommands` models that
    reading, and `InsertLinkInline` lifts it to a whole document. */
module LinkAsBlock {
  import opened Schema
  import opened LinkCommands
  import opened DocLines

  /** The caret case of inserting a link as the editor performs it, with no link
      active, in a top-level lowest block (not a list, whose items are the lowest
      blocks, nor a table). The caret sits at the end of child `at` of block `i`, a
      text run. The block is split there and the link goes between the two halves;
      at the end of the block nothing is split and the link follows it. Either way
      the link is a top-level block, so the result is never a well-formed document. */
  function InsertLinkBlockAtCaret(doc: seq<Node>, i: nat, at: nat, url: string): (r: seq<Node>)
    requires i < |doc| && TextBlock(doc[i]) && at < |doc[i].children|
    requires !IsLink(doc[i].children[at])
    ensures |r| == |doc| + (if at + 1 == |doc[i].children| then 1 else 2)
    ensures r[..i] == doc[..i]
    ensures r[i] == doc[i].(children := doc[i].children[..at + 1])
    ensures r[i + 1] == UrlLink(url)
    ensures !WellFormedDoc(r)
  {
    var b := doc[i];
    var r := if at + 1 == |b.children| then
      doc[..i] + [b, UrlLink(url)] + doc[i + 1..]
    else
      doc[..i] + [b.(children := b.children[..at + 1]), UrlLink(url), b.(children := b.children[at + 1..])] + doc[i + 1..];
    assert r[i + 1] in r;
    r
  }

  /** One paragraph `a` with the caret at its end: the link to `https://x.com`
      becomes a second top-level block. */
  lemma CaretLinkLeavesBlock()
    ensures var p := Element(Paragraph, NoProps, [Text(Run("a", NoMarks))]);
      && WellFormedDoc([p])
      && InsertLinkBlockAtCaret([p], 0, 0, "https://x.com") == [p, UrlLink("https://x.com")]
      && !WellFormedDoc(InsertLinkBlockAtCaret([p], 0, 0, "https://x.com"))
  {
    var p := Element(Paragraph, NoProps, [Text(Run("a", NoMarks))]);
    assert p.children[0] in p.children;
    assert p.children[..1] == p.children;
  }

  /** The caret case with `link` inline: the link goes into the block's content right
      after the caret (after unwrapping a link the caret sits in), and the block stays
      where it was. */
  function InsertLinkInline(doc: seq<Node>, i: nat, at: nat, url: string): (r: seq<Node>)
    requires WellFormedDoc(doc) && i < |doc| && at < |doc[i].children|
    requires doc[i].kind in {Paragraph, Heading, Blockquote}
    ensures |r| == |doc|
    ensures forall k | 0 <= k < |doc| && k != i :: r[k] == doc[k]
    ensures r[i].Element? && r[i].kind == doc[i].kind && r[i].props == doc[i].props
    ensures r[i].children == WrapLink(Inline(doc[i].children, Caret(at)), url).content
    ensures !IsLink(doc[i].children[at]) ==>
      r[i].children == doc[i].children[..at + 1] + [UrlLink(url)] + doc[i].children[at + 1..]
    ensures WellFormedDoc(r)
  {
    var b := doc[i];
    assert b in doc;
    assert InlineWellFormed(b.children);
    var s := Inline(b.children, Caret(at));
    var w := WrapLink(s, url);
    var nb := b.(children := w.content);
    InlineBlockWellFormed(b, w.content);
    var r := doc[i := nb];
    forall n | n in r ensures n.Element? && IsTopLevel(n.kind) && WellFormed(n) {
      var k :| 0 <= k < |r| && r[k] == n;
      if k != i {
        assert doc[k] in doc;
      }
    }
    r
  }

  /** The inline reading stops short of the text-only blocks: a code block, an image
      or a divider holds text runs only, yet inserting a link at a caret in one of
      them, which the command does not refuse, puts a link among its children. */
  lemma TextOnlyBlockRejectsInlineLink(doc: seq<Node>, i: nat, at: nat, url: string)
    requires WellFormedDoc(doc) && i < |doc| && at < |doc[i].children|
    requires doc[i].Element? && doc[i].kind in {CodeBlock, Image, Divider}
    ensures InlineWellFormed(doc[i].children)
    ensures var w := WrapLink(Inline(doc[i].children, Caret(at)), url);
      && UrlLink(url) in w.content
      && !WellFormedDoc(doc[i := doc[i].(children := w.content)])
  {
    var b := doc[i];
    assert b in doc;
    TextOnlyBlocks(b);
    var w := WrapLink(Inline(b.children, Caret(at)), url);
    var nb := b.(children := w.content);
    LinkInTextOnlyBlock(nb, w.content[w.sel.at]);
    var r := doc[i := nb];
    assert r[i] == nb;
  }

  lemma LinkInTextOnlyBlock(n: Node, c: Node)
    requires n.Element? && n.kind in {CodeBlock, Image, Divider} && c in n.children && c.Element?
    ensures !WellFormed(n)
  {
    if WellFormed(n) {
      TextOnlyBlocks(n);
    }
  }

  /** A rich-text block keeps being well formed when its content is replaced by
      non-empty well-formed inline content. */
  lemma InlineBlockWellFormed(b: Node, content: seq<Node>)
    requires WellFormed(b) && b.Element? && b.kind in {Paragraph, Heading, Blockquote}
    requires InlineWellFormed(content) && |content| > 0
    ensures WellFormed(b.(children := content))
  {
  }
}

=== FILE: links.dfy ===
/** The link commands, on the inline content of one block.

    The inline content is the child sequence of a lowest block: text runs and links
    over text runs. A selection inside it is absent, a caret at the end of child
    `at`, or a span covering the whole children `lo <= i < hi`. */
module LinkCommands {
  import opened Schema
  import opened Seqs
  import Url

  datatype InlineSel = NoSelection | Caret(at: nat) | Span(lo: nat, hi: nat)

  datatype Inline = Inline(content: seq<Node>, sel: InlineSel)

  /** The selection addresses children that exist. */
  predicate ValidInline(s: Inline) {
    match s.sel
    case NoSelection => true
    case Caret(at) => at < |s.content|
    case Span(lo, hi) => lo < hi <= |s.content|
  }

  /** Inline content as the schema admits it inside a lowest block: text runs and
      well-formed links, which hold text runs only. */
  predicate InlineWellFormed(content: seq<Node>) {
    forall c | c in content :: IsRichText(c) && WellFormed(c)
  }

  predicate IsLink(n: Node) {
    IsElementOf(n, Link)
  }

  /** The link element carrying `url` around `cs`. */
  function LinkNode(url: string, cs: seq<Node>): Node {
    Element(Link, NoProps.(url := Some(url)), cs)
  }

  /** A link is active when the caret sits in one or the span touches one. */
  predicate IsLinkActive(s: Inline)
    requires ValidInline(s)
  {
    match s.sel
    case NoSelection => false
    case Caret(at) => IsLink(s.content[at])
    case Span(lo, hi) => exists i | lo <= i < hi :: IsLink(s.content[i])
  }

  /** A child with a link replaced by its children. */
  function Expand(n: Node): seq<Node> {
    if IsLink(n) then n.children else [n]
  }

  /** Content with every link replaced by its children. */
  function Flatten(s: seq<Node>): (r: seq<Node>)
    decreases |s|
  {
    if s == [] then [] else Expand(s[0]) + Flatten(s[1..])
  }

  lemma {:induction false} FlattenAppend(a: seq<Node>, b: seq<Node>)
    ensures Flatten(a + b) == Flatten(a) + Flatten(b)
    decreases |a|
  {
    if a == [] {
      assert a + b == b;
    } else {
      assert (a + b)[1..] == a[1..] + b;
      FlattenAppend(a[1..], b);
    }
  }

  lemma FlattenSingle(n: Node)
    ensures Flatten([n]) == Expand(n)
  {
    assert [n][1..] == [];
  }

  /** Content without links is its own flattening. */
  lemma {:induction false} FlattenNoLinks(s: seq<Node>)
    requires forall i | 0 <= i < |s| :: !IsLink(s[i])
    ensures Flatten(s) == s
    decreases |s|
  {
    if s != [] {
      FlattenNoLinks(s[1..]);
    }
  }

  /** Flattening well-formed content leaves text runs only, at least one per child. */
  lemma {:induction false} FlattenText(s: seq<Node>)
    requires InlineWellFormed(s)
    ensures |Flatten(s)| >= |s|
    ensures forall i | 0 <= i < |Flatten(s)| :: Flatten(s)[i].Text?
    decreases |s|
  {
    if s != [] {
      assert s[0] in s;
      assert InlineWellFormed(s[1..]) by {
        forall c | c in s[1..] ensures c in s { }
      }
      FlattenText(s[1..]);
      var e := Expand(s[0]);
      assert forall c | c in e :: c.Text?;
      assert |e| >= 1;
      forall i | 0 <= i < |Flatten(s)| ensures Flatten(s)[i].Text? {
        if i < |e| {
          assert e[i] in e;
        }
      }
    }
  }

  /** Unwrapping the links at the selection: a link under the caret gives way to
      its children and the caret moves to the end of the last of them; links in a span
      give way to their children and the span grows to cover them. */
  function UnwrapLink(s: Inline): (r: Inline)
    requires ValidInline(s) && InlineWellFormed(s.content)
    ensures ValidInline(r)
    ensures Flatten(r.content) == Flatten(s.content)
    ensures !IsLinkActive(r)
    ensures r.sel.NoSelection? <==> s.sel.NoSelection?
    ensures InlineWellFormed(r.content)
    ensures s.sel.NoSelection? ==> r == s
    ensures s.sel.Caret? && !IsLink(s.content[s.sel.at]) ==> r == s
    ensures s.sel.Caret? && IsLink(s.content[s.sel.at]) ==>
      var at, cs := s.sel.at, s.content[s.sel.at].children;
      && r.content == s.content[..at] + cs + s.content[at + 1..]
      && r.sel.Caret? && r.sel.at + 1 == at + |cs|
    ensures s.sel.Span? ==>
      var lo, hi := s.sel.lo, s.sel.hi;
      && r.sel.Span? && r.sel.lo == lo
      && r.content[..lo] == s.content[..lo]
      && r.content[lo..r.sel.hi] == Flatten(s.content[lo..hi])
      && r.content[r.sel.hi..] == s.content[hi..]
  {
    match s.sel
    case NoSelection => s
    case Caret(at) =>
      if IsLink(s.content[at]) then
        assert s.content[at] in s.content;
        UnwrapCaretSpec(s.content, at);
        UnwrapCaret(s.content, at)
      else
        s
    case Span(lo, hi) =>
      UnwrapSpanSpec(s.content, lo, hi);
      UnwrapSpan(s.content, lo, hi)
  }

  /** The link at child `at` replaced by its children, the caret at the last of them. */
  function UnwrapCaret(content: seq<Node>, at: nat): Inline
    requires at < |content| && content[at].Element? && |content[at].children| > 0
  {
    var cs := content[at].children;
    Inline(content[..at] + cs + content[at + 1..], Caret(at + |cs| - 1))
  }

  /** The children `lo <= i < hi` replaced by their flattening, the span around it. */
  function UnwrapSpan(content: seq<Node>, lo: nat, hi: nat): Inline
    requires lo <= hi <= |content|
  {
    var flat := Flatten(content[lo..hi]);
    Inline(content[..lo] + flat + content[hi..], Span(lo, lo + |flat|))
  }

  lemma UnwrapCaretSpec(content: seq<Node>, at: nat)
    requires at < |content| && InlineWellFormed(content) && IsLink(content[at])
    requires |content[at].children| > 0
    ensures var r := UnwrapCaret(content, at);
      && ValidInline(r) && r.sel.Caret?
      && Flatten(r.content) == Flatten(content)
      && !IsLinkActive(r)
      && InlineWellFormed(r.content)
  {
    var n := content[at];
    assert n in content;
    var cs := n.children;
    assert |cs| > 0;
    assert forall i | 0 <= i < |cs| :: cs[i].Text? by {
      assert forall i | 0 <= i < |cs| :: cs[i] in cs;
    }
    assert Flatten(content[at..at + 1]) == cs by {
      assert content[at..at + 1] == [n];
      FlattenSingle(n);
    }
    FlattenNoLinks(cs);
    SpliceFlatten(content, at, at + 1, cs);
    SpliceWellFormed(content, at, at + 1, cs);
    var r := UnwrapCaret(content, at);
    assert r.content[at + |cs| - 1] == cs[|cs| - 1];
  }

  lemma UnwrapSpanSpec(content: seq<Node>, lo: nat, hi: nat)
    requires lo < hi <= |content| && InlineWellFormed(content)
    ensures var r := UnwrapSpan(content, lo, hi);
      && ValidInline(r) && r.sel.Span? && r.sel.lo == lo
      && Flatten(r.content) == Flatten(content)
      && r.content[..lo] == content[..lo]
      && r.content[lo..r.sel.hi] == Flatten(content[lo..hi])
      && r.content[r.sel.hi..] == content[hi..]
      && (forall i | lo <= i < r.sel.hi :: r.content[i].Text?)
      && !IsLinkActive(r)
      && InlineWellFormed(r.content)
  {
    var mid := content[lo..hi];
    assert InlineWellFormed(mid) by {
      forall c | c in mid ensures c in content { }
    }
    FlattenText(mid);
    var flat := Flatten(mid);
    FlattenNoLinks(flat);
    SpliceFlatten(content, lo, hi, flat);
    SpliceWellFormed(content, lo, hi, flat);
    Splice3(content[..lo], flat, content[hi..]);
  }




  /** Flattening distributes over a three-way concatenation. */
  lemma Flatten3(a: seq<Node>, b: seq<Node>, c: seq<Node>)
    ensures Flatten(a + b + c) == Flatten(a) + Flatten(b) + Flatten(c)
  {
    FlattenAppend(a + b, c);
    FlattenAppend(a, b);
  }

  /** Replacing the children `lo <= i < hi` by `mid` flattens to the same content when
      `mid` flattens like the children it replaces. */
  lemma SpliceFlatten(s: seq<Node>, lo: nat, hi: nat, mid: seq<Node>)
    requires lo <= hi <= |s| && Flatten(mid) == Flatten(s[lo..hi])
    ensures Flatten(s[..lo] + mid + s[hi..]) == Flatten(s)
  {
    var a, b, c := s[..lo], s[lo..hi], s[hi..];
    assert s == a + b + c by {
      Splice3(a, b, c);
    }
    Flatten3(a, mid, c);
    Flatten3(a, b, c);
  }

  /** Splicing text runs into well-formed content keeps it well formed. */
  lemma SpliceWellFormed(s: seq<Node>, lo: nat, hi: nat, mid: seq<Node>)
    requires lo <= hi <= |s| && InlineWellFormed(s)
    requires forall i | 0 <= i < |mid| :: mid[i].Text?
    ensures InlineWellFormed(s[..lo] + mid + s[hi..])
  {
    forall c | c in s[..lo] + mid + s[hi..] ensures IsRichText(c) && WellFormed(c) {
      if c in s[..lo] || c in s[hi..] {
        assert c in s;
      }
    }
  }

  /** Wrapping the selection in a link to `url`, after unwrapping any active link: a
      caret gets a new link whose only child is the URL as text, placed after the
      caret; a span is wrapped whole, and the selection collapses onto the new link.
      Without a selection nothing happens. */
  function WrapLink(s: Inline, url: string): (r: Inline)
    requires ValidInline(s) && InlineWellFormed(s.content)
    ensures s.sel.NoSelection? ==> r == s
    ensures ValidInline(r) && InlineWellFormed(r.content)
    ensures s.sel.Caret? ==> r.sel.Caret? && r.content[r.sel.at] == UrlLink(url)
    ensures s.sel.Span? ==>
      && r.sel == Caret(s.sel.lo)
      && r.content[..s.sel.lo] == s.content[..s.sel.lo]
      && r.content[s.sel.lo] == LinkNode(url, Flatten(s.content[s.sel.lo..s.sel.hi]))
      && r.content[s.sel.lo + 1..] == s.content[s.sel.hi..]
    ensures s.sel.Caret? ==>
      var u := RemoveLink(s);
      && u.sel.Caret?
      && r.content == u.content[..u.sel.at + 1] + [UrlLink(url)] + u.content[u.sel.at + 1..]
      && r.sel == Caret(u.sel.at + 1)
    ensures s.sel.Caret? && !IsLinkActive(s) ==>
      var at := s.sel.at;
      r.content == s.content[..at + 1] + [UrlLink(url)] + s.content[at + 1..]
  {
    var t := RemoveLink(s);
    match t.sel
    case NoSelection => t
    case Caret(at) =>
      WrapCaretFacts(s, url);
      InsertAfter(t.content, at, url)
    case Span(lo, hi) =>
      WrapSpanFacts(s, t, url);
      SpliceOne(t.content[..lo], LinkNode(url, t.content[lo..hi]), t.content[hi..]);
      Inline(t.content[..lo] + [LinkNode(url, t.content[lo..hi])] + t.content[hi..], Caret(lo))
  }

  /** The caret case of `WrapLink`: after the optional unwrap the caret is still a
      caret, and the new link lands right after it. */
  lemma WrapCaretFacts(s: Inline, url: string)
    requires ValidInline(s) && InlineWellFormed(s.content) && s.sel.Caret?
    ensures var t := RemoveLink(s);
      && t.sel.Caret? && ValidInline(t) && InlineWellFormed(t.content)
      && var r := InsertAfter(t.content, t.sel.at, url);
      && ValidInline(r) && InlineWellFormed(r.content)
      && r.sel == Caret(t.sel.at + 1) && r.content[r.sel.at] == UrlLink(url)
      && r.content == t.content[..t.sel.at + 1] + [UrlLink(url)] + t.content[t.sel.at + 1..]
      && (!IsLinkActive(s) ==> t == s)
  {
    var t := RemoveLink(s);
    InsertAfterSpec(t.content, t.sel.at, url);
  }


  /** The link a collapsed selection gets: the URL is also its text. */
  function UrlLink(url: string): Node {
    LinkNode(url, [Text(Run(url, NoMarks))])
  }

  /** A new link to `url` placed after child `at`, the caret in it. */
  function InsertAfter(content: seq<Node>, at: nat, url: string): Inline
    requires at < |content|
  {
    Inline(content[..at + 1] + [UrlLink(url)] + content[at + 1..], Caret(at + 1))
  }

  lemma InsertAfterSpec(content: seq<Node>, at: nat, url: string)
    requires at < |content| && InlineWellFormed(content)
    ensures var r := InsertAfter(content, at, url);
      ValidInline(r) && InlineWellFormed(r.content) && r.content[at + 1] == UrlLink(url)
  {
    var link := UrlLink(url);
    var content' := content[..at + 1] + [link] + content[at + 1..];
    assert content'[at + 1] == link;
    assert WellFormed(link) by {
      assert link.children[0] in link.children;
    }
    forall c | c in content' ensures IsRichText(c) && WellFormed(c) {
      if c != link {
        assert c in content[..at + 1] || c in content[at + 1..];
        assert c in content;
      }
    }
  }

  /** The span case of `WrapLink`: after the optional unwrap, the span holds the
      flattened span of the original content, all text runs. */
  lemma WrapSpanFacts(s: Inline, t: Inline, url: string)
    requires ValidInline(s) && InlineWellFormed(s.content) && s.sel.Span?
    requires t == if IsLinkActive(s) then UnwrapLink(s) else s
    ensures t.sel.Span? && t.sel.lo == s.sel.lo
    ensures ValidInline(t) && InlineWellFormed(t.content)
    ensures t.content[..t.sel.lo] == s.content[..s.sel.lo]
    ensures t.content[t.sel.hi..] == s.content[s.sel.hi..]
    ensures t.content[t.sel.lo..t.sel.hi] == Flatten(s.content[s.sel.lo..s.sel.hi])
    ensures var content := t.content[..t.sel.lo] + [LinkNode(url, t.content[t.sel.lo..t.sel.hi])] + t.content[t.sel.hi..];
      InlineWellFormed(content)
  {
    if IsLinkActive(s) {
      UnwrapSpanSpec(s.content, s.sel.lo, s.sel.hi);
    } else {
      PlainSpan(s);
    }
    WrapTextSpanWellFormed(t, url);
  }

  /** A span without links is its own flattening and holds text runs only. */
  lemma PlainSpan(s: Inline)
    requires ValidInline(s) && InlineWellFormed(s.content) && s.sel.Span? && !IsLinkActive(s)
    ensures Flatten(s.content[s.sel.lo..s.sel.hi]) == s.content[s.sel.lo..s.sel.hi]
    ensures forall i | s.sel.lo <= i < s.sel.hi :: s.content[i].Text?
  {
    var lo, hi := s.sel.lo, s.sel.hi;
    FlattenNoLinks(s.content[lo..hi]);
    forall i | lo <= i < hi ensures s.content[i].Text? {
      assert s.content[i] in s.content;
    }
  }

  /** Wrapping a span of text runs in a link keeps the content well formed. */
  lemma WrapTextSpanWellFormed(t: Inline, url: string)
    requires ValidInline(t) && InlineWellFormed(t.content) && t.sel.Span?
    requires forall i | t.sel.lo <= i < t.sel.hi :: t.content[i].Text?
    ensures var content := t.content[..t.sel.lo] + [LinkNode(url, t.content[t.sel.lo..t.sel.hi])] + t.content[t.sel.hi..];
      InlineWellFormed(content)
  {
    var link := LinkNode(url, t.content[t.sel.lo..t.sel.hi]);
    var content := t.content[..t.sel.lo] + [link] + t.content[t.sel.hi..];
    assert WellFormed(link) by {
      assert link.children[0] in link.children;
      forall c | c in link.children ensures c.Text? {
        var i :| t.sel.lo <= i < t.sel.hi && t.content[i] == c;
      }
    }
    forall c | c in content ensures IsRichText(c) && WellFormed(c) {
      if c != link {
        assert c in t.content[..t.sel.lo] || c in t.content[t.sel.hi..];
        assert c in t.content;
      }
    }
  }

  /** Inserting a link: the URL is normalised first, and an empty one inserts
      nothing. */
  function InsertLink(s: Inline, url: string): (r: Inline)
    requires ValidInline(s) && InlineWellFormed(s.content)
    ensures url == "" ==> r == s
    ensures url != "" ==> r == WrapLink(s, Url.NormalizeUrl(url))
    ensures ValidInline(r) && InlineWellFormed(r.content)
  {
    var normalized := Url.NormalizeUrl(url);
    if normalized == "" then s else WrapLink(s, normalized)
  }

  /** Removing a link: the links at the selection are unwrapped when one is active,
      and nothing happens otherwise. The text is never changed. */
  function RemoveLink(s: Inline): (r: Inline)
    requires ValidInline(s) && InlineWellFormed(s.content)
    ensures !IsLinkActive(s) ==> r == s
    ensures IsLinkActive(s) ==> r == UnwrapLink(s)
    ensures ValidInline(r) && !IsLinkActive(r) && InlineWellFormed(r.content)
    ensures Flatten(r.content) == Flatten(s.content)
  {
    if IsLinkActive(s) then UnwrapLink(s) else s
  }

  /** After a link is inserted at a selection, a link is active there, it carries
      the normalised URL, and no link lies inside another. */
  lemma InsertLinkActivates(s: Inline, url: string)
    requires ValidInline(s) && InlineWellFormed(s.content) && !s.sel.NoSelection? && url != ""
    ensures var r := InsertLink(s, url);
      && r.sel.Caret? && IsLinkActive(r)
      && r.content[r.sel.at].props.url == Some(Url.NormalizeUrl(url))
      && forall c | c in r.content :: IsLink(c) ==> forall d | d in c.children :: !HasLink(d)
  {
    var r := InsertLink(s, url);
    forall c | c in r.content ensures IsLink(c) ==> forall d | d in c.children :: !HasLink(d) {
      if IsLink(c) {
        LinkNeverNests(c);
      }
    }
  }

  /** Linking a span that holds no link and then removing the link gives back the
      original content, with the caret at the end of the formerly selected children. */
  lemma InsertThenRemoveLink(s: Inline, url: string)
    requires ValidInline(s) && InlineWellFormed(s.content) && s.sel.Span? && url != ""
    requires !IsLinkActive(s)
    ensures RemoveLink(InsertLink(s, url)).content == s.content
    ensures RemoveLink(InsertLink(s, url)).sel == Caret(s.sel.hi - 1)
  {
    var lo, hi := s.sel.lo, s.sel.hi;
    var mid := s.content[lo..hi];
    PlainSpan(s);
    var r := InsertLink(s, url);
    var pre, post := s.content[..lo], s.content[hi..];
    var link := LinkNode(Url.NormalizeUrl(url), mid);
    assert r.content == pre + [link] + post by {
      Reassemble(r.content, lo);
    }
    UnwrapCaretOf(pre, link, post);
    Splice3(pre, mid, post);
    Reassemble3(s.content, lo, hi);
  }

  /** Unwrapping a link at the caret puts its children in its place. */
  lemma UnwrapCaretOf(pre: seq<Node>, link: Node, post: seq<Node>)
    requires IsLink(link) && |link.children| > 0
    ensures var r := UnwrapCaret(pre + [link] + post, |pre|);
      r.content == pre + link.children + post && r.sel == Caret(|pre| + |link.children| - 1)
  {
    var s := pre + [link] + post;
    assert s[..|pre|] == pre;
    assert s[|pre| + 1..] == post;
  }

  /** At a caret the round trip does not give the content back: the URL text the link
      was created with stays behind as a plain run after the caret. */
  lemma InsertThenRemoveLinkAtCaret(s: Inline, url: string)
    requires ValidInline(s) && InlineWellFormed(s.content) && s.sel.Caret? && url != ""
    requires !IsLinkActive(s)
    ensures var at := s.sel.at;
      RemoveLink(InsertLink(s, url)).content ==
        s.content[..at + 1] + [Text(Run(Url.NormalizeUrl(url), NoMarks))] + s.content[at + 1..]
  {
    var at := s.sel.at;
    var u := Url.NormalizeUrl(url);
    var r := InsertLink(s, url);
    var link := LinkNode(u, [Text(Run(u, NoMarks))]);
    assert r.content == s.content[..at + 1] + [link] + s.content[at + 1..];
    assert r.sel == Caret(at + 1);
    assert r.content[..at + 1] == s.content[..at + 1];
    assert r.content[at + 2..] == s.content[at + 1..];
  }

  /** Removing a link twice is removing it once. */
  lemma RemoveLinkIdempotent(s: Inline)
    requires ValidInline(s) && InlineWellFormed(s.content)
    ensures RemoveLink(RemoveLink(s)) == RemoveLink(s)
  {
  }

  /** A link is active exactly when unwrapping the links at the selection changes
      something: at a caret, the child there is a link; on a span, some covered child
      is one. */
  lemma LinkActiveIffUnwrapChanges(s: Inline)
    requires ValidInline(s) && InlineWellFormed(s.content)
    ensures IsLinkActive(s) <==> UnwrapLink(s) != s
  {
    var r := UnwrapLink(s);
    match s.sel
    case NoSelection =>
    case Caret(at) =>
      if IsLink(s.content[at]) {
        var n := s.content[at];
        assert n in s.content;
        CaretUnwrapChanges(s.content, r.content, at);
      }
    case Span(lo, hi) =>
      var x := s.content[lo..hi];
      assert InlineWellFormed(x) by {
        forall c | c in x ensures c in s.content { }
      }
      if IsLinkActive(s) {
        var i :| lo <= i < hi && IsLink(s.content[i]);
        FlattenText(x);
        SpanUnwrapChanges(s.content, r.content, lo, hi, r.sel.hi, i);
      } else {
        SpanUnwrapKeeps(s.content, r.content, lo, hi, r.sel.hi);
      }
  }

  /** Content whose link at `at` gave way to its text children differs from it. */
  lemma CaretUnwrapChanges(content: seq<Node>, rc: seq<Node>, at: nat)
    requires at < |content| && IsLink(content[at]) && WellFormed(content[at])
    requires rc == content[..at] + content[at].children + content[at + 1..]
    ensures rc != content
  {
    var n := content[at];
    assert n.children[0] in n.children;
    assert rc[at] == n.children[0];
  }

  /** A span holding a link differs from its flattening, which holds text only. */
  lemma SpanUnwrapChanges(content: seq<Node>, rc: seq<Node>, lo: nat, hi: nat, rhi: nat, i: nat)
    requires lo <= i < hi <= |content| && IsLink(content[i])
    requires lo <= rhi <= |rc| && rc[lo..rhi] == Flatten(content[lo..hi])
    requires forall k | 0 <= k < |Flatten(content[lo..hi])| :: Flatten(content[lo..hi])[k].Text?
    ensures rhi != hi || rc != content
  {
    if rhi == hi && i < |rc| {
      assert rc[i] == rc[lo..rhi][i - lo];
    }
  }

  /** A span holding no link is its own flattening, so unwrapping keeps it. */
  lemma SpanUnwrapKeeps(content: seq<Node>, rc: seq<Node>, lo: nat, hi: nat, rhi: nat)
    requires lo <= hi <= |content| && forall i | lo <= i < hi :: !IsLink(content[i])
    requires lo <= rhi <= |rc|
    requires rc[..lo] == content[..lo] && rc[lo..rhi] == Flatten(content[lo..hi]) && rc[rhi..] == content[hi..]
    ensures rhi == hi && rc == content
  {
    var x := content[lo..hi];
    forall j | 0 <= j < |x| ensures !IsLink(x[j]) {
      assert x[j] == content[lo + j];
    }
    FlattenNoLinks(x);
    Reassemble3(content, lo, hi);
    Reassemble3(rc, lo, rhi);
  }

  /** Wrapping a span that already holds a link replaces that link: the span ends up
      inside exactly one link, holding the text runs of the span. */
  lemma WrapLinkReplacesLink(s: Inline, url: string)
    requires ValidInline(s) && InlineWellFormed(s.content) && s.sel.Span? && IsLinkActive(s)
    ensures var r := WrapLink(s, url);
      && IsLink(r.content[s.sel.lo])
      && forall d | d in r.content[s.sel.lo].children :: d.Text?
  {
    var lo, hi := s.sel.lo, s.sel.hi;
    var mid := s.content[lo..hi];
    assert InlineWellFormed(mid) by {
      forall c | c in mid ensures c in s.content { }
    }
    FlattenText(mid);
  }
}

=== FILE: marks.dfy ===
/** The mark commands: whether a mark is active at the selection, and toggling it. */
module MarkCommands {
  import opened Schema

  /** What the mark commands see of the selection. `Caret` carries the marks the
      editor reports at a collapsed caret, which are the marks the next typed
      character gets; `Span` carries the text runs an expanded selection touches, in
      document order. */
  datatype MarkScope =
    | Unselected
    | Caret(pending: Marks)
    | Span(runs: seq<Run>)

  /** The mark record the editor reports: none without a selection, the pending
      marks at a caret, the marks of the first touched run of a span (an empty record
      when the span touches no run). */
  function CurrentMarks(s: MarkScope): Option<Marks> {
    match s
    case Unselected => None
    case Caret(m) => Some(m)
    case Span(runs) => Some(if |runs| == 0 then NoMarks else runs[0].marks)
  }

  /** A mark is active only when the reported record holds it as `true`. */
  function IsMarkActive(s: MarkScope, f: MarkFormat): (b: bool)
    ensures b ==> s != Unselected
    ensures b <==> CurrentMarks(s).Some? && CurrentMarks(s).value.Get(f) == Some(true)
  {
    match s
    case Unselected => false
    case Caret(m) => m.Get(f) == Some(true)
    case Span(runs) => |runs| > 0 && runs[0].marks.Get(f) == Some(true)
  }

  /** Removing a mark deletes its key; adding one stores `true`. */
  function Flip(m: Marks, f: MarkFormat, active: bool): Marks {
    if active then m.Put(f, None) else m.Put(f, Some(true))
  }

  function FlipRuns(runs: seq<Run>, f: MarkFormat, active: bool): (rs: seq<Run>)
    ensures |rs| == |runs|
    ensures forall i | 0 <= i < |runs| :: rs[i] == Run(runs[i].text, Flip(runs[i].marks, f, active))
  {
    seq(|runs|, i requires 0 <= i < |runs| => Run(runs[i].text, Flip(runs[i].marks, f, active)))
  }

  /** Toggling mark `f`: when it is active it is removed, otherwise it is set to
      `true`, at the caret or on every touched run; nothing happens without a
      selection. Text and the other three marks are never touched. */
  function ToggleMark(s: MarkScope, f: MarkFormat): (r: MarkScope)
    ensures s.Unselected? <==> r.Unselected?
    ensures s.Caret? <==> r.Caret?
    ensures s.Caret? ==> r.pending.Get(f) == (if IsMarkActive(s, f) then None else Some(true))
    ensures s.Caret? ==> forall g | g != f :: r.pending.Get(g) == s.pending.Get(g)
    ensures s.Span? ==> r.Span? && |r.runs| == |s.runs|
    ensures s.Span? ==> forall i | 0 <= i < |s.runs| ::
      && r.runs[i].text == s.runs[i].text
      && r.runs[i].marks.Get(f) == (if IsMarkActive(s, f) then None else Some(true))
      && forall g | g != f :: r.runs[i].marks.Get(g) == s.runs[i].marks.Get(g)
  {
    var active := IsMarkActive(s, f);
    match s
    case Unselected => Unselected
    case Caret(m) => Caret(Flip(m, f, active))
    case Span(runs) => Span(FlipRuns(runs, f, active))
  }

  /** The selection touches some text: a caret, or a span over at least one run. */
  predicate HasText(s: MarkScope) {
    s.Caret? || (s.Span? && |s.runs| > 0)
  }

  /** Toggling `f` negates the activeness of `f` and keeps that of every other mark. */
  lemma ToggleMarkFlips(s: MarkScope, f: MarkFormat)
    requires HasText(s)
    ensures IsMarkActive(ToggleMark(s, f), f) == !IsMarkActive(s, f)
    ensures forall g | g != f :: IsMarkActive(ToggleMark(s, f), g) == IsMarkActive(s, g)
  {
  }

  /** Toggling twice restores which marks are active. */
  lemma ToggleMarkTwiceActiveness(s: MarkScope, f: MarkFormat, g: MarkFormat)
    ensures IsMarkActive(ToggleMark(ToggleMark(s, f), f), g) == IsMarkActive(s, g)
  {
    if HasText(s) {
      ToggleMarkFlips(s, f);
      ToggleMarkFlips(ToggleMark(s, f), f);
    }
  }

  /** Every touched run holds `f` in the same way as the first one. */
  predicate Uniform(s: MarkScope, f: MarkFormat) {
    s.Span? ==> forall i | 0 <= i < |s.runs| :: s.runs[i].marks.Get(f) == s.runs[0].marks.Get(f)
  }

  /** No touched run and no pending record stores `f` as an explicit `false`. */
  predicate NoExplicitFalse(s: MarkScope, f: MarkFormat) {
    && (s.Caret? ==> s.pending.Get(f) != Some(false))
    && (s.Span? ==> forall i | 0 <= i < |s.runs| :: s.runs[i].marks.Get(f) != Some(false))
  }

  lemma FlipTwice(m: Marks, f: MarkFormat, active: bool)
    requires active <==> m.Get(f) == Some(true)
    requires m.Get(f) != Some(false)
    ensures Flip(Flip(m, f, active), f, !active) == m
  {
    var once := Flip(m, f, active);
    var twice := Flip(once, f, !active);
    forall g ensures twice.Get(g) == m.Get(g) {
      if g != f {
        assert once.Get(g) == m.Get(g);
      } else if active {
        assert twice == once.Put(f, Some(true));
      } else {
        assert twice == once.Put(f, None);
        OptionBoolCases(m.Get(f));
      }
    }
    MarksExt(twice, m);
  }

  /** Toggling twice restores the selection exactly when every touched run agrees on
      `f` and none stores it as an explicit `false`. */
  lemma ToggleMarkTwiceRestores(s: MarkScope, f: MarkFormat)
    ensures ToggleMark(ToggleMark(s, f), f) == s <==> Uniform(s, f) && NoExplicitFalse(s, f)
  {
    if Uniform(s, f) && NoExplicitFalse(s, f) {
      TwiceRestores(s, f);
    } else if ToggleMark(ToggleMark(s, f), f) == s {
      TwiceRestoredIsUniform(s, f);
    }
  }

  lemma {:induction false} TwiceRestores(s: MarkScope, f: MarkFormat)
    requires Uniform(s, f) && NoExplicitFalse(s, f)
    ensures ToggleMark(ToggleMark(s, f), f) == s
  {
    match s
    case Unselected =>
    case Caret(m) =>
      FlipTwice(m, f, IsMarkActive(s, f));
    case Span(runs) =>
      if |runs| > 0 {
        var active := IsMarkActive(s, f);
        var once := ToggleMark(s, f);
        assert IsMarkActive(once, f) == !active;
        var twice := ToggleMark(once, f);
        forall i | 0 <= i < |runs| ensures twice.runs[i] == runs[i] {
          FlipTwice(runs[i].marks, f, active);
        }
        assert twice.runs == runs;
      }
  }

  /** Two toggles store one and the same value, absent or `true`, for `f` on every
      run, so a selection they restore is uniform and holds no explicit `false`. */
  lemma TwiceRestoredIsUniform(s: MarkScope, f: MarkFormat)
    requires ToggleMark(ToggleMark(s, f), f) == s
    ensures Uniform(s, f) && NoExplicitFalse(s, f)
  {
    var once := ToggleMark(s, f);
    var v: Option<bool> := if IsMarkActive(once, f) then None else Some(true);
    if s.Span? {
      forall i | 0 <= i < |s.runs| ensures s.runs[i].marks.Get(f) == v {
        assert ToggleMark(once, f).runs[i] == s.runs[i];
      }
    }
  }

  /** An explicit `false` is not restored: toggling twice leaves the key absent. */
  lemma ToggleMarkTwiceDropsExplicitFalse(m: Marks, f: MarkFormat)
    requires m.Get(f) == Some(false)
    ensures ToggleMark(ToggleMark(Caret(m), f), f) == Caret(m.Put(f, None))
  {
    var once := ToggleMark(Caret(m), f);
    assert once.pending.Get(f) == Some(true);
    var twice := ToggleMark(once, f);
    assert twice.pending.Get(f) == None;
    assert forall g :: twice.pending.Get(g) == m.Put(f, None).Get(g);
    MarksExt(twice.pending, m.Put(f, None));
  }

  lemma OptionBoolCases(o: Option<bool>)
    ensures o == None || o == Some(true) || o == Some(false)
  {
    match o
    case None =>
    case Some(b) =>
      if b {
        assert o == Some(true);
      } else {
        assert o == Some(false);
      }
  }

  /** Two mark records that agree on every mark are equal. */
  lemma MarksExt(a: Marks, b: Marks)
    requires forall g :: a.Get(g) == b.Get(g)
    ensures a == b
  {
    assert a.Get(Bold) == b.Get(Bold);
    assert a.Get(Italic) == b.Get(Italic);
    assert a.Get(Underline) == b.Get(Underline);
    assert a.Get(Code) == b.Get(Code);
  }
}

=== FILE: schema.dfy ===
/** The document schema of the editor: the closed set of node types, the mark record of a
    text run, and the parent/child typing rules a well-formed document obeys. */
module Schema {

  datatype Option<+T> = None | Some(value: T)

  datatype Alignment = Left | Center | Right

  /** The four independent boolean marks of a text run. */
  datatype MarkFormat = Bold | Italic | Underline | Code

  /** The type tag of an element. */
  datatype Kind =
    | Paragraph | Heading | CodeBlock | Blockquote
    | BulletedList | NumberedList | ListItem
    | Image | Link | Divider
    | Table | TableRow | TableCell

  /** The mark fields of a text run. `None` is an absent key, which is how a
      removed mark is stored; `Some(false)` is an explicit `false`. */
  datatype Marks = Marks(bold: Option<bool>, italic: Option<bool>, underline: Option<bool>, code: Option<bool>)
  {
    function Get(f: MarkFormat): Option<bool> {
      match f
      case Bold => bold
      case Italic => italic
      case Underline => underline
      case Code => code
    }

    /** This record with field `f` replaced by `v`. */
    function Put(f: MarkFormat, v: Option<bool>): (m: Marks)
      ensures m.Get(f) == v
      ensures forall g :: g != f ==> m.Get(g) == Get(g)
    {
      match f
      case Bold => this.(bold := v)
      case Italic => this.(italic := v)
      case Underline => this.(underline := v)
      case Code => this.(code := v)
    }
  }

  const NoMarks := Marks(None, None, None, None)

  /** A text run: its string and its marks. */
  datatype Run = Run(text: string, marks: Marks)

  /** The optional fields an element may carry. Which of them a given type must or
      may not carry is stated by `FieldsFit`. */
  datatype Props = Props(
    align: Option<Alignment>,
    level: Option<int>,
    url: Option<string>,
    alt: Option<string>,
    caption: Option<string>)

  const NoProps := Props(None, None, None, None, None)

  datatype Node =
    | Text(run: Run)
    | Element(kind: Kind, props: Props, children: seq<Node>)

  /** The text run `{text: ''}` used as the placeholder child of void-like blocks. */
  const EmptyText := Text(Run("", NoMarks))

  predicate IsList(k: Kind) {
    k == BulletedList || k == NumberedList
  }

  /** The types an `align` may be set on: every element type except `link`. */
  predicate IsAlignable(k: Kind) {
    k in {Paragraph, Heading, CodeBlock, Blockquote, BulletedList, NumberedList, ListItem,
          Image, Table, TableRow, TableCell, Divider}
  }

  /** The block formats the block toolbar can toggle. */
  predicate IsBlockFormat(k: Kind) {
    k in {Paragraph, Heading, CodeBlock, Blockquote, BulletedList, NumberedList, ListItem}
  }

  /** The types that may stand at the top level of a document. */
  predicate IsTopLevel(k: Kind) {
    k in {Paragraph, Heading, CodeBlock, Blockquote, BulletedList, NumberedList, Image, Divider, Table}
  }

  predicate IsElementOf(n: Node, k: Kind) {
    n.Element? && n.kind == k
  }

  predicate IsListNode(n: Node) {
    n.Element? && IsList(n.kind)
  }

  /** Rich text: a text run or an inline link. */
  predicate IsRichText(n: Node) {
    n.Text? || IsElementOf(n, Link)
  }

  /** The typing rule for the children of each element type. */
  predicate AllowedChild(parent: Kind, c: Node) {
    match parent
    case Link | CodeBlock | Image | Divider => c.Text?
    case Paragraph | Heading | Blockquote | ListItem | TableCell => IsRichText(c)
    case BulletedList | NumberedList => IsElementOf(c, ListItem)
    case Table => IsElementOf(c, TableRow)
    case TableRow => IsElementOf(c, TableCell)
  }

  /** Fields required or forbidden by an element's type: a heading has a level in
      {1, 2, 3}; a link and an image have a url; a link has no alignment. */
  predicate FieldsFit(k: Kind, p: Props) {
    && (k == Heading ==> p.level.Some? && 1 <= p.level.value <= 3)
    && (k == Link || k == Image ==> p.url.Some?)
    && (k == Link ==> p.align.None?)
  }

  predicate WellFormed(n: Node)
    decreases n
  {
    match n
    case Text(_) => true
    case Element(k, p, cs) =>
      && |cs| > 0
      && FieldsFit(k, p)
      && forall c | c in cs :: AllowedChild(k, c) && WellFormed(c)
  }

  predicate WellFormedDoc(doc: seq<Node>) {
    forall n | n in doc :: n.Element? && IsTopLevel(n.kind) && WellFormed(n)
  }

  /** True iff some node of the subtree rooted at `n` is a `link` element. */
  predicate HasLink(n: Node)
    decreases n
  {
    n.Element? && (n.kind == Link || exists c | c in n.children :: HasLink(c))
  }

  /** A well-formed link holds text runs only, so no link occurs below it. */
  lemma LinkNeverNests(n: Node)
    requires WellFormed(n) && IsElementOf(n, Link)
    ensures forall c | c in n.children :: c.Text? && !HasLink(c)
  {
  }

  /** A well-formed code block, image or divider holds text runs only. */
  lemma TextOnlyBlocks(n: Node)
    requires WellFormed(n) && n.Element? && n.kind in {CodeBlock, Image, Divider}
    ensures forall c | c in n.children :: c.Text?
    ensures !exists c | c in n.children :: HasLink(c)
  {
  }

  /** Where list items, table rows and table cells may occur in a well-formed tree. */
  lemma ContainerRules(n: Node, c: Node)
    requires WellFormed(n) && n.Element? && c in n.children
    ensures IsElementOf(c, ListItem) ==> IsList(n.kind)
    ensures IsElementOf(c, TableRow) <==> n.kind == Table
    ensures IsElementOf(c, TableCell) <==> n.kind == TableRow
  {
  }

  /** A well-formed document never has a list item, table row, table cell or link at
      the top level. */
  lemma TopLevelRules(doc: seq<Node>, i: int)
    requires WellFormedDoc(doc) && 0 <= i < |doc|
    ensures doc[i].kind !in {ListItem, TableRow, TableCell, Link}
    ensures |doc[i].children| > 0
  {
    assert doc[i] in doc;
  }

  /** `link` is the one element type that cannot be aligned. */
  lemma AlignableTypes(k: Kind)
    ensures IsAlignable(k) <==> k != Link
  {
  }

  /** Every block format is alignable and is never link, table, row, cell, image or
      divider, so toggling a block format never produces one of those. */
  lemma BlockFormats(k: Kind)
    requires IsBlockFormat(k)
    ensures IsAlignable(k) && k !in {Link, Table, TableRow, TableCell, Image, Divider}
  {
  }

  /** A well-formed heading has a level among 1, 2 and 3. */
  lemma HeadingLevels(n: Node)
    requires WellFormed(n) && IsElementOf(n, Heading)
    ensures n.props.level in {Some(1), Some(2), Some(3)}
  {
  }
}

=== FILE: seed.dfy ===
/** The seed document a new editing session starts from, and the facts about it. */
module Seed {
  import opened Schema

  function Plain(s: string): Node {
    Text(Run(s, NoMarks))
  }

  function Block(k: Kind, cs: seq<Node>): Node {
    Element(k, NoProps, cs)
  }

  function Aligned(k: Kind, a: Alignment, cs: seq<Node>): Node {
    Element(k, NoProps.(align := Some(a)), cs)
  }

  function HeadingOf(level: int, s: string): Node {
    Element(Heading, NoProps.(level := Some(level)), [Plain(s)])
  }

  function Cell(s: string): Node {
    Block(TableCell, [Plain(s)])
  }

  function Row(a: string, b: string): Node {
    Block(TableRow, [Cell(a), Cell(b)])
  }

  function Item(s: string): Node {
    Block(ListItem, [Plain(s)])
  }

  const BulletList := Block(BulletedList, [
    Item("굵게 (Ctrl+B)"),
    Item("기울임 (Ctrl+I)"),
    Item("밑줄 (Ctrl+U)"),
    Item("코드 (Ctrl+`)")])

  const IntroParagraph := Block(Paragraph, [
    Plain("이것은 "),
    Text(Run("Slate.js", NoMarks.(bold := Some(true)))),
    Plain("로 구현된 리치 텍스트 에디터입니다. "),
    Text(Run("Next.js 14", NoMarks.(italic := Some(true)))),
    Plain(" 환경에서 실행됩니다.")])

  const GuideParagraph := Aligned(Paragraph, Center, [
    Plain("자세한 가이드는 "),
    Element(Link, NoProps.(url := Some("https://docs.slatejs.org")), [Plain("Slate 공식 문서")]),
    Plain("를 참고하세요.")])

  const SampleImage := Element(Image,
    NoProps.(align := Some(Center),
             url := Some("https://images.unsplash.com/photo-1503676260728-1c00da094a0b?auto=format&fit=crop&w=1200&q=80"),
             caption := Some("Unsplash 제공 예시 이미지")),
    [EmptyText])

  const SampleDivider := Aligned(Divider, Center, [EmptyText])

  const FeatureTable := Aligned(Table, Center, [
    Row("기능", "설명"),
    Row("정렬", "좌/중앙/우측 정렬을 제공합니다."),
    Row("이미지", "URL 입력으로 이미지를 삽입합니다.")])

  const Title := HeadingOf(1, "Slate.js 텍스트 에디터 데모")

  const FeaturesHeading := HeadingOf(2, "지원하는 기능들")

  const Quote := Block(Blockquote, [Plain("인용문 블록도 지원합니다. 텍스트를 강조할 때 사용하세요.")])

  const Snippet := Block(CodeBlock, [Plain("const greeting = \"Hello, Slate!\";\nconsole.log(greeting);")])

  const Closing := Block(Paragraph, [Plain("위의 도구 모음을 사용하여 텍스트 서식을 변경해보세요!")])

  /** The seed document, block by block. */
  function InitialValue(): seq<Node> {
    [ Title, IntroParagraph, FeaturesHeading, BulletList, Quote, Snippet,
      GuideParagraph, SampleImage, SampleDivider, FeatureTable, Closing ]
  }

  /** A block holding text runs only is well formed when its type admits text. */
  lemma TextBlockWellFormed(n: Node)
    requires n.Element? && |n.children| > 0 && FieldsFit(n.kind, n.props)
    requires n.kind in {Paragraph, Heading, Blockquote, CodeBlock, ListItem, TableCell, Image, Divider, Link}
    requires forall c | c in n.children :: c.Text?
    ensures WellFormed(n)
  {
  }

  lemma RowWellFormed(a: string, b: string)
    ensures WellFormed(Row(a, b))
  {
    TextBlockWellFormed(Cell(a));
    TextBlockWellFormed(Cell(b));
  }

  predicate GoodTopBlock(n: Node) {
    n.Element? && IsTopLevel(n.kind) && WellFormed(n)
  }

  /** Eleven good blocks in a row make a well-formed document, whatever they hold.
      The blocks are separate parameters so that the solver sees them as opaque
      values and never unfolds the seed's large constants while proving this. */
  lemma GoodBlocksDoc(a: Node, b: Node, c: Node, d: Node, e: Node, f: Node, g: Node, h: Node, i: Node, j: Node, k: Node)
    requires GoodTopBlock(a) && GoodTopBlock(b) && GoodTopBlock(c) && GoodTopBlock(d)
    requires GoodTopBlock(e) && GoodTopBlock(f) && GoodTopBlock(g) && GoodTopBlock(h)
    requires GoodTopBlock(i) && GoodTopBlock(j) && GoodTopBlock(k)
    ensures WellFormedDoc([a, b, c, d, e, f, g, h, i, j, k])
  {
  }

  lemma ListWellFormed()
    ensures GoodTopBlock(BulletList)
  {
    forall i | 0 <= i < 4 {
      TextBlockWellFormed(BulletList.children[i]);
    }
  }

  lemma GuideWellFormed()
    ensures GoodTopBlock(GuideParagraph)
  {
    TextBlockWellFormed(GuideParagraph.children[1]);
  }

  /** A centred table of three well-formed rows is a good top-level block. */
  lemma TableOfRows(a: Node, b: Node, c: Node)
    requires IsElementOf(a, TableRow) && IsElementOf(b, TableRow) && IsElementOf(c, TableRow)
    requires WellFormed(a) && WellFormed(b) && WellFormed(c)
    ensures GoodTopBlock(Aligned(Table, Center, [a, b, c]))
  {
  }

  lemma TableWellFormed()
    ensures GoodTopBlock(FeatureTable)
  {
    RowWellFormed("기능", "설명");
    RowWellFormed("정렬", "좌/중앙/우측 정렬을 제공합니다.");
    RowWellFormed("이미지", "URL 입력으로 이미지를 삽입합니다.");
    TableOfRows(Row("기능", "설명"), Row("정렬", "좌/중앙/우측 정렬을 제공합니다."),
                Row("이미지", "URL 입력으로 이미지를 삽입합니다."));
  }

  lemma TextBlocksWellFormed()
    ensures GoodTopBlock(Title) && GoodTopBlock(FeaturesHeading) && GoodTopBlock(IntroParagraph)
    ensures GoodTopBlock(Quote) && GoodTopBlock(Snippet) && GoodTopBlock(Closing)
    ensures GoodTopBlock(SampleImage) && GoodTopBlock(SampleDivider)
  {
    TextBlockWellFormed(Title);
    TextBlockWellFormed(FeaturesHeading);
    TextBlockWellFormed(IntroParagraph);
    TextBlockWellFormed(Quote);
    TextBlockWellFormed(Snippet);
    TextBlockWellFormed(SampleImage);
    TextBlockWellFormed(SampleDivider);
    TextBlockWellFormed(Closing);
  }

  /** Every block of the seed document is a well-formed top-level block: the list
      holds list items only, the table rows only and each row cells only. */
  lemma SeedWellFormed()
    ensures WellFormedDoc(InitialValue())
  {
    TextBlocksWellFormed();
    ListWellFormed();
    GuideWellFormed();
    TableWellFormed();
    GoodBlocksDoc(Title, IntroParagraph, FeaturesHeading, BulletList, Quote, Snippet,
                  GuideParagraph, SampleImage, SampleDivider, FeatureTable, Closing);
  }

  /** The seed document uses heading levels 1 and 2 only. */
  lemma SeedHeadingLevels()
    ensures forall i | 0 <= i < |InitialValue()| && IsElementOf(InitialValue()[i], Heading) ::
      InitialValue()[i].props.level in {Some(1), Some(2)}
    ensures InitialValue()[0].props.level == Some(1) && InitialValue()[2].props.level == Some(2)
  {
  }

  /** The image and the divider of the seed document each carry the single
      placeholder `{text: ''}`. */
  lemma SeedVoidBlocks()
    ensures forall i | 0 <= i < |InitialValue()| && InitialValue()[i].kind in {Image, Divider} ::
      InitialValue()[i].children == [EmptyText] && InitialValue()[i].props.align == Some(Center)
  {
  }
}

=== FILE: seqs.dfy ===
/** Facts about cutting and splicing sequences, shared by the line model and the
    inline content of a block. */
module Seqs {
  /** A sequence is its prefix, one element and its suffix. */
  lemma Reassemble<T>(s: seq<T>, k: nat)
    requires k < |s|
    ensures s == s[..k] + [s[k]] + s[k + 1..]
  {
  }

  /** A sequence is its prefix, a middle range and its suffix. */
  lemma Reassemble3<T>(s: seq<T>, lo: nat, hi: nat)
    requires lo <= hi <= |s|
    ensures s == s[..lo] + s[lo..hi] + s[hi..]
  {
  }

  /** The three parts of a three-way concatenation can be cut out again. */
  lemma Splice3<T>(pre: seq<T>, mid: seq<T>, post: seq<T>)
    ensures var s := pre + mid + post;
      && |s| == |pre| + |mid| + |post|
      && s[..|pre|] == pre && s[|pre|..|pre| + |mid|] == mid && s[|pre| + |mid|..] == post
      && forall i | |pre| <= i < |pre| + |mid| :: s[i] == mid[i - |pre|]
  {
  }

  lemma SpliceOne<T>(pre: seq<T>, x: T, post: seq<T>)
    ensures var s := pre + [x] + post;
      && |s| == |pre| + 1 + |post|
      && s[..|pre|] == pre && s[|pre|] == x && s[|pre| + 1..] == post
  {
  }

  /** Indexing into a sequence whose range `lo..hi` was replaced by one as long. */
  lemma SpliceIndex<T>(ls: seq<T>, ms: seq<T>, lo: nat, hi: nat)
    requires lo <= hi <= |ls| && |ms| == hi - lo
    ensures |ls[..lo] + ms + ls[hi..]| == |ls|
    ensures forall i | 0 <= i < |ls| && !(lo <= i < hi) :: (ls[..lo] + ms + ls[hi..])[i] == ls[i]
    ensures forall i | lo <= i < hi :: (ls[..lo] + ms + ls[hi..])[i] == ms[i - lo]
  {
  }

  lemma PrefixOfConcat<T>(a: seq<T>, b: seq<T>, k: nat)
    requires k <= |a| + |b|
    ensures k <= |a| ==> (a + b)[..k] == a[..k]
    ensures k >= |a| ==> (a + b)[..k] == a + b[..k - |a|]
  {
  }

  lemma SuffixOfConcat<T>(a: seq<T>, b: seq<T>, k: nat)
    requires k <= |a| + |b|
    ensures k <= |a| ==> (a + b)[k..] == a[k..] + b
    ensures k >= |a| ==> (a + b)[k..] == b[k - |a|..]
  {
  }
}

=== FILE: url.dfy ===
/** URL normalisation for links: a URL without a scheme gets `https://` in front. */
module Url {

  const HttpsPrefix: string := "https://"

  predicate IsAsciiLetter(c: char) {
    'a' <= c <= 'z' || 'A' <= c <= 'Z'
  }

  /** The characters the pattern admits after the first letter of a scheme. */
  predicate IsSchemeChar(c: char) {
    IsAsciiLetter(c) || '0' <= c <= '9' || c == '+' || c == '.' || c == '-'
  }

  /** `s[..k+1]` is a scheme followed by its colon: a letter, then scheme characters,
      then `:` at index `k`. */
  ghost predicate SchemeEndsAt(s: string, k: int) {
    && 1 <= k < |s|
    && IsAsciiLetter(s[0])
    && s[k] == ':'
    && forall j | 1 <= j < k :: IsSchemeChar(s[j])
  }

  /** The reference reading of the pattern `^[a-zA-Z][a-zA-Z0-9+.-]*:`. */
  ghost predicate HasSchemeSpec(s: string) {
    exists k :: SchemeEndsAt(s, k)
  }

  /** A left-to-right scan from index `i`: scheme characters up to a colon. */
  function ScanScheme(s: string, i: nat): (r: bool)
    requires i <= |s|
    ensures r <==> exists k | i <= k < |s| :: s[k] == ':' && forall j | i <= j < k :: IsSchemeChar(s[j])
    decreases |s| - i
  {
    if i == |s| then false
    else if s[i] == ':' then true
    else if IsSchemeChar(s[i]) then
      var r := ScanScheme(s, i + 1);
      assert r ==> exists k | i <= k < |s| :: s[k] == ':' && forall j | i <= j < k :: IsSchemeChar(s[j]);
      r
    else false
  }

  /** The scheme test of the normaliser. */
  function HasScheme(s: string): (b: bool)
    ensures b <==> HasSchemeSpec(s)
  {
    if |s| > 0 && IsAsciiLetter(s[0]) && ScanScheme(s, 1) then
      var k :| 1 <= k < |s| && s[k] == ':' && forall j | 1 <= j < k :: IsSchemeChar(s[j]);
      assert SchemeEndsAt(s, k);
      true
    else
      false
  }

  /** The empty string stays empty, a URL with a scheme is kept, any other URL gets
      `https://` in front. */
  function NormalizeUrl(url: string): (r: string)
    ensures url == [] ==> r == []
    ensures url != [] && HasSchemeSpec(url) ==> r == url
    ensures url != [] && !HasSchemeSpec(url) ==> r == HttpsPrefix + url
    ensures r == [] <==> url == []
    ensures r != [] ==> HasSchemeSpec(r)
  {
    if url == [] then url
    else if HasScheme(url) then url
    else
      var r := HttpsPrefix + url;
      assert SchemeEndsAt(r, 5);
      r
  }

  /** Normalising twice is normalising once, since `https:` is itself a scheme. */
  lemma NormalizeUrlIdempotent(url: string)
    ensures NormalizeUrl(NormalizeUrl(url)) == NormalizeUrl(url)
  {
  }

  /** A bare host gains the prefix. */
  lemma NormalizeBareHost()
    ensures NormalizeUrl("example.com") == "https://example.com"
  {
    NoColonNoScheme("example.com");
  }

  /** Without a colon there is no scheme. */
  lemma NoColonNoScheme(s: string)
    requires ':' !in s
    ensures !HasSchemeSpec(s)
  {
  }

  /** An explicit scheme is kept as typed. */
  lemma NormalizeKeepsScheme()
    ensures NormalizeUrl("ftp://x") == "ftp://x"
    ensures NormalizeUrl("mailto:a@b") == "mailto:a@b"
  {
    assert SchemeEndsAt("ftp://x", 3);
    assert SchemeEndsAt("mailto:a@b", 6);
  }

  /** A host with a port already reads as a scheme (`localhost:` matches the pattern)
      and is kept as typed. */
  lemma NormalizeHostWithPort()
    ensures NormalizeUrl("localhost:3000") == "localhost:3000"
  {
    assert SchemeEndsAt("localhost:3000", 9);
  }

  /** A numeric host with a port does not start with a letter and gains the prefix. */
  lemma NormalizeNumericHost()
    ensures NormalizeUrl("1.2.3.4:80") == "https://1.2.3.4:80"
  {
  }
}
